=== FILE: README.md ===
# Cache-first photo repository: a Dafny model

This project models the data layer of an Android photo-search app. It
covers the Kotlin `PhotoRepository`, the two Room data-access objects it
sits on (`PhotoDao` and `RecentSearchDao`), their entities, and the catalog
records the Pexels API returns.

A search goes through these steps:

- The repository first normalises the query. It trims it and lower-cases it.
- It records the normalised query in the recent-search list. The list keeps
  the ten most recently used queries.
- Unless a refresh is forced, it serves a non-empty cached page for the
  normalised key and page.
- Otherwise it asks the remote catalog with the raw query. It then writes the
  answer into the photo cache, keeping each photo's favourite flag, and
  sweeps out that key's non-favourite rows older than 24 hours.
- If the remote catalog fails, it falls back to the cached page. With no
  cached page it reports the error.

Lookups by id are cache-first as well. A photo fetched by id is cached under
the key `"detail"`, page 0. Favourites can be toggled, set and listed, and
they survive refetches, sweeps and `clearCache`.

The model is functional:

- The photo table is a map from photo id to row. Its subset type
  `PhotoDao.PhotoTable` says that every row sits under its own id.
- The recent-search table is a map from query to `lastUsedAt`.
- Every DAO statement is a pure function on the table.
- The two operations that reach the remote catalog, `searchPhotos` and
  `getPhotoById`, take:
  - both tables (`Db`);
  - the remote catalog as an oracle (`Remote`), with one function for search
    and one for lookup by id;
  - the clock reading `now`.
- Those two return an `Outcome`. It holds the caller's result, the tables
  afterwards and the list of remote requests made.
- Every other repository operation takes only the table it reads or writes,
  with two exceptions. `getCachedPhotosForLastSearch` reads both tables, as a
  `Db`. `saveRecentSearch` and the expiry sweep `cleanOldCache` also take
  `now`. Each operation returns the table it writes, or the value it reads.
- `Flow` and `PagingSource` queries are read as snapshots of the current
  table.
- SQL `ORDER BY` is modelled by sorting the finite key set under a strict
  total order (`Ordering.Sort`), and `LIMIT n` by `Ordering.Limit`. As in
  SQLite, a negative `n` means no limit.

Files:

| file | module | role |
|---|---|---|
| wrappers.dfy | Wrappers | `Option`, `Result` |
| ordering.dfy | Ordering | sorting a finite set, `LIMIT`, lexicographic string order |
| pexels_models.dfy | PexelsModels | `Photo`, `PhotoSrc`, `PexelsResponse` |
| photo_entity.dfy | PhotoEntities | `PhotoEntity`, `toEntity`, `toPhoto` |
| recent_search_entity.dfy | RecentSearchEntities | `RecentSearchEntity`, `trim`, `lowercase`, `normalizeQuery` |
| photo_dao.dfy | PhotoDao | every statement of `PhotoDao` |
| recent_search_dao.dfy | RecentSearchDao | every statement of `RecentSearchDao` |
| photo_repository.dfy | PhotoRepository | every operation of `PhotoRepository`, `SearchResult` |
| repository_properties.dfy | RepositoryProperties | path-by-path and multi-step properties of the repository |

Three facts about the code that shape the model:

- `getPhotosByQueryAndPage` orders its rows by id only
  (app/src/main/java/com/diegocal/laboratorio6/database/dao/PhotoDao.kt:41-46). The model's single-page read is
  ordered by id.
- In `searchPhotos`, any exception inside the `try` block leads to the
  `catch` fallback (app/src/main/java/com/diegocal/laboratorio6/repository/PhotoRepository.kt:95-111). Storage never
  fails in the model, so only a failed remote call reaches the fallback.
  Storage failures are listed under Left out.
- `ORDER BY lastUsedAt DESC` leaves equally recent queries in no fixed order
  (app/src/main/java/com/diegocal/laboratorio6/database/dao/RecentSearchDao.kt:21-36 and 54-61). `ORDER BY updatedAt
  DESC` (app/src/main/java/com/diegocal/laboratorio6/database/dao/PhotoDao.kt:79) does the same for equally recent
  favourites. The model breaks such
  ties by the query text and by the photo id. The contracts of the DAO
  operations hold whatever order ties come in. Four lemmas that compare two
  listings as sequences rely on the model's tie-break, and "## Left out"
  names them.

## Model

| member | source | states |
|---|---|---|
| PhotoEntities.ToEntity | app/src/main/java/com/diegocal/laboratorio6/database/entities/PhotoEntity.kt:50-66 | converting the row back gives the photo unchanged; the row carries exactly the given key, page and flag, and is stamped `now` |
| PhotoEntities.ToPhoto | app/src/main/java/com/diegocal/laboratorio6/database/entities/PhotoEntity.kt:68-82 | the record keeps the row's id |
| PhotoEntities.DefaultIsNotFavorite | app/src/main/java/com/diegocal/laboratorio6/database/entities/PhotoEntity.kt:50 | `toEntity` without a flag stores a non-favourite row |
| PhotoEntities.EntityRoundTrip | app/src/main/java/com/diegocal/laboratorio6/database/entities/PhotoEntity.kt:50-82 | re-caching a row's record under its own key, page and flag rebuilds the row except for `updatedAt` |
| PhotoEntities.ToPhotoIgnoresCacheMetadata | app/src/main/java/com/diegocal/laboratorio6/database/entities/PhotoEntity.kt:68-82 | the record does not depend on key, page, flag or timestamp |
| PhotoEntities.ToPhotos | app/src/main/java/com/diegocal/laboratorio6/repository/PhotoRepository.kt:204-206 | mapping rows to records keeps length and position |
| RecentSearchEntities.TrimBy | app/src/main/java/com/diegocal/laboratorio6/database/entities/RecentSearchEntity.kt:25 | `trim` returns the slice between the leading and trailing runs of whitespace, and that slice has no whitespace at either end |
| RecentSearchEntities.IsWhitespace | app/src/main/java/com/diegocal/laboratorio6/database/entities/RecentSearchEntity.kt:25 | the predicate `trim()` strips: space, tab, newline and carriage return are whitespace, and no letter or digit is |
| RecentSearchEntities.Trim | app/src/main/java/com/diegocal/laboratorio6/database/entities/RecentSearchEntity.kt:25 | the result is the slice of the input after its leading whitespace, everything dropped on either side is whitespace, and the result has no whitespace at either end |
| RecentSearchEntities.Lower | app/src/main/java/com/diegocal/laboratorio6/database/entities/RecentSearchEntity.kt:25 | same length; no upper-case letter remains, `A`-`Z` move to `a`-`z`, and every other character is kept |
| RecentSearchEntities.IsBlank | app/src/main/java/com/diegocal/laboratorio6/repository/PhotoRepository.kt:216 | a string is blank exactly when trimming it leaves nothing |
| RecentSearchEntities.TrimUnique | app/src/main/java/com/diegocal/laboratorio6/database/entities/RecentSearchEntity.kt:25 | any split of a string into a whitespace prefix, a core without whitespace at its ends, and a whitespace suffix gives the trimmed string |
| RecentSearchEntities.NormalizeQuery | app/src/main/java/com/diegocal/laboratorio6/database/entities/RecentSearchEntity.kt:24-26 | the key has no whitespace at either end and no upper-case letter, and is no longer than the input |
| RecentSearchEntities.TrimLowerCommute | app/src/main/java/com/diegocal/laboratorio6/database/entities/RecentSearchEntity.kt:25 | trimming and lower-casing commute |
| RecentSearchEntities.NormalizedIsFixpoint | app/src/main/java/com/diegocal/laboratorio6/database/entities/RecentSearchEntity.kt:24-26 | a key that is already normalised is its own key |
| RecentSearchEntities.NormalizeIdempotent | app/src/main/java/com/diegocal/laboratorio6/database/entities/RecentSearchEntity.kt:24-26 | normalising twice is normalising once |
| RecentSearchEntities.TrimIgnoresSurrounding | app/src/main/java/com/diegocal/laboratorio6/database/entities/RecentSearchEntity.kt:25 | whitespace around a string does not change its trimmed form |
| RecentSearchEntities.NormalizeIgnoresSurroundingWhitespace | app/src/main/java/com/diegocal/laboratorio6/database/entities/RecentSearchEntity.kt:20-26 | a query padded with blank strings has the same key |
| RecentSearchEntities.NormalizeIgnoresCase | app/src/main/java/com/diegocal/laboratorio6/database/entities/RecentSearchEntity.kt:20-26 | queries that differ only in letter case have the same key |
| RecentSearchEntities.KeyOfLowered | app/src/main/java/com/diegocal/laboratorio6/database/entities/RecentSearchEntity.kt:24-26 | a string whose lower-casing is already a key normalises to that key |
| RecentSearchEntities.KeyOfPadded | app/src/main/java/com/diegocal/laboratorio6/database/entities/RecentSearchEntity.kt:24-26 | blank padding on either side keeps a string's key |
| RecentSearchEntities.KeyVariants | app/src/main/java/com/diegocal/laboratorio6/database/entities/RecentSearchEntity.kt:20-26 | a key, any string that lower-cases to it, and that string padded with blanks all normalise to the key |
| RecentSearchEntities.NatureExample | app/src/main/java/com/diegocal/laboratorio6/database/entities/RecentSearchEntity.kt:20-23 | "Nature", "nature" and " Nature " all normalise to "nature" |
| RecentSearchEntities.NormalizedBlankIffEmpty | app/src/main/java/com/diegocal/laboratorio6/database/entities/RecentSearchEntity.kt:24-26 | a normalised key is blank exactly when it is empty |
| Ordering.SortedUnique | app/src/main/java/com/diegocal/laboratorio6/database/dao/PhotoDao.kt:79 | two listings of one set sorted under the same strict total order are equal, so an `ORDER BY` with a fixed tie-break determines its result |
| PhotoDao.InsertPhoto | app/src/main/java/com/diegocal/laboratorio6/database/dao/PhotoDao.kt:21-22 | afterwards the row under the entity's id is the entity, and every other row is unchanged |
| PhotoDao.InsertPhotos | app/src/main/java/com/diegocal/laboratorio6/database/dao/PhotoDao.kt:18-19 | the ids afterwards are the old ids plus the batch's ids; rows outside the batch are unchanged; for each id the batch's last row with that id is stored |
| PhotoDao.StoredFromBatch | app/src/main/java/com/diegocal/laboratorio6/database/dao/PhotoDao.kt:18-19 | the row stored for a batch id is one of the batch's rows with that id |
| PhotoDao.GetPhotosByQueryAndPage | app/src/main/java/com/diegocal/laboratorio6/database/dao/PhotoDao.kt:41-46 | exactly the stored rows of that key and page, in strictly ascending id order |
| PhotoDao.GetPhotosByQueryPaging | app/src/main/java/com/diegocal/laboratorio6/database/dao/PhotoDao.kt:30-35 | exactly the stored rows of that key, by page and then by id |
| PhotoDao.GetPhotosCountForQuery | app/src/main/java/com/diegocal/laboratorio6/database/dao/PhotoDao.kt:51-52 | the count is the number of rows the listing of that key holds |
| PhotoDao.GetPhotoById | app/src/main/java/com/diegocal/laboratorio6/database/dao/PhotoDao.kt:59-66 | the stored row with that id, or none exactly when the id is absent |
| PhotoDao.IsFavorite | app/src/main/java/com/diegocal/laboratorio6/database/dao/PhotoDao.kt:91-92 | the flag of the row with that id, none exactly when the row is absent |
| PhotoDao.GetFavoritePhotos | app/src/main/java/com/diegocal/laboratorio6/database/dao/PhotoDao.kt:79-86 | exactly the favourite rows, one per favourite id, without repetition, by non-increasing `updatedAt` |
| PhotoDao.UpdateFavoriteStatus | app/src/main/java/com/diegocal/laboratorio6/database/dao/PhotoDao.kt:73-74 | only the flag of that row changes (not `updatedAt`); an absent id leaves the table unchanged |
| PhotoDao.UpdateThenRead | app/src/main/java/com/diegocal/laboratorio6/database/dao/PhotoDao.kt:73-92 | reading the flag back after setting it gives the value set, or none for an absent id |
| PhotoDao.DeleteOldPhotosForQuery | app/src/main/java/com/diegocal/laboratorio6/database/dao/PhotoDao.kt:100-106 | a row is removed exactly when it has that key, is not a favourite and was written before the cutoff; survivors are unchanged |
| PhotoDao.DeletePhotosForQuery | app/src/main/java/com/diegocal/laboratorio6/database/dao/PhotoDao.kt:111-112 | removes only rows of that key and keeps its favourites; no non-favourite row of the key is left |
| PhotoDao.DeleteAllPhotosForQuery | app/src/main/java/com/diegocal/laboratorio6/database/dao/PhotoDao.kt:118-119 | no row of that key is left; every other row stays unchanged |
| PhotoDao.ClearCache | app/src/main/java/com/diegocal/laboratorio6/database/dao/PhotoDao.kt:124-125 | exactly the favourite rows are left, unchanged |
| PhotoDao.DeleteAll | app/src/main/java/com/diegocal/laboratorio6/database/dao/PhotoDao.kt:130-131 | no row is left |
| PhotoDao.FavoritesDependOnlyOnFavoriteRows | app/src/main/java/com/diegocal/laboratorio6/database/dao/PhotoDao.kt:79-80 | two tables with the same favourite rows list the same favourites in the same order, under the model's tie-break by id |
| PhotoDao.ClearCacheKeepsFavoriteList | app/src/main/java/com/diegocal/laboratorio6/database/dao/PhotoDao.kt:124-125 | the favourite list after `clearCache` is the list before it, under the model's tie-break by id |
| RecentSearchDao.InsertRecentSearch | app/src/main/java/com/diegocal/laboratorio6/database/dao/RecentSearchDao.kt:14-15 | the query's one row carries the new time; the other rows are unchanged |
| RecentSearchDao.GetRecentSearchesList | app/src/main/java/com/diegocal/laboratorio6/database/dao/RecentSearchDao.kt:21-36 | `min(limit, size)` rows of the table (all rows for a negative limit; `limit` defaults to ten), distinct, by non-increasing time; no omitted row is more recent than a listed one |
| RecentSearchDao.DeleteRecentSearch | app/src/main/java/com/diegocal/laboratorio6/database/dao/RecentSearchDao.kt:41-42 | removes exactly that query's row |
| RecentSearchDao.ClearAllRecentSearches | app/src/main/java/com/diegocal/laboratorio6/database/dao/RecentSearchDao.kt:47-48 | the table is empty |
| RecentSearchDao.KeepOnlyRecentN | app/src/main/java/com/diegocal/laboratorio6/database/dao/RecentSearchDao.kt:54-62 | survivors are old rows, unchanged; `min(limit, size)` of them remain (`limit` defaults to ten); an evicted row is no more recent than any survivor |
| RecentSearchDao.KeptAreListed | app/src/main/java/com/diegocal/laboratorio6/database/dao/RecentSearchDao.kt:54-62 | the pruned table keeps exactly the queries the list read under the same limit shows, when both settle ties by query text |
| RecentSearchDao.KeepAllWhenUnderLimit | app/src/main/java/com/diegocal/laboratorio6/database/dao/RecentSearchDao.kt:54-62 | nothing is evicted when the table has at most `limit` rows or the limit is negative |
| RecentSearchDao.LatestRankedFirst | app/src/main/java/com/diegocal/laboratorio6/database/dao/RecentSearchDao.kt:31-36 | a query used strictly later than all others is the first row of the list under any non-zero limit |
| RecentSearchDao.LatestSurvivesTrim | app/src/main/java/com/diegocal/laboratorio6/database/dao/RecentSearchDao.kt:54-62 | a query just recorded later than every other survives pruning to any positive limit |
| PhotoRepository.SaveRecentSearch | app/src/main/java/com/diegocal/laboratorio6/repository/PhotoRepository.kt:214-226 | a blank key leaves the list unchanged; otherwise, with `u` the list after recording the key at `now`, exactly `min(10, |u|)` entries of `u` remain with their times in `u` (so a re-recorded key carries `now`), and none of the dropped entries is more recent than a kept one |
| PhotoRepository.QueryList | app/src/main/java/com/diegocal/laboratorio6/repository/PhotoRepository.kt:232-234 | one query per row, in the rows' order, so every query of the rows is listed |
| PhotoRepository.GetRecentSearches | app/src/main/java/com/diegocal/laboratorio6/repository/PhotoRepository.kt:231-235 | `min(limit, size)` recorded queries (`limit` defaults to ten), distinct, most recent first, none omitted that is more recent |
| PhotoRepository.GetLastSearchedQuery | app/src/main/java/com/diegocal/laboratorio6/repository/PhotoRepository.kt:119-121 | none exactly when the list is empty; otherwise a recorded query used no earlier than any other |
| PhotoRepository.DeleteRecentSearchFor | app/src/main/java/com/diegocal/laboratorio6/repository/PhotoRepository.kt:240-242 | the normalised query is gone and every other entry is unchanged |
| PhotoRepository.ClearRecentSearches | app/src/main/java/com/diegocal/laboratorio6/repository/PhotoRepository.kt:247-249 | the list is empty |
| PhotoRepository.PreviousFavorite | app/src/main/java/com/diegocal/laboratorio6/repository/PhotoRepository.kt:75-79 | the stored flag, false exactly when the photo is absent or not a favourite |
| PhotoRepository.EntitiesFor | app/src/main/java/com/diegocal/laboratorio6/repository/PhotoRepository.kt:73-81 | one row per fetched photo, holding it under the key and page, stamped `now`, with its stored flag |
| PhotoRepository.CleanOldCache | app/src/main/java/com/diegocal/laboratorio6/repository/PhotoRepository.kt:256-259 | a row is removed exactly when it is a non-favourite row of the key written more than 24 hours before `now`; kept rows are unchanged |
| PhotoRepository.StoreSearchPage | app/src/main/java/com/diegocal/laboratorio6/repository/PhotoRepository.kt:73-85 | every fetched photo is cached and every favourite stays a favourite |
| PhotoRepository.FavoritesKeptByBatch | app/src/main/java/com/diegocal/laboratorio6/repository/PhotoRepository.kt:73-82 | writing a fetched page never clears a favourite flag |
| PhotoRepository.SearchPhotos | app/src/main/java/com/diegocal/laboratorio6/repository/PhotoRepository.kt:41-113 | with `perPage` defaulting to 15 and `forceRefresh` to false: the query is recorded; the remote catalog is asked with the raw query exactly when the search is forced or the cached page is empty; a failure or cache answer writes no photo; a failure is the remote's error; favourites survive |
| PhotoRepository.GetCachedPhotosForLastSearch | app/src/main/java/com/diegocal/laboratorio6/repository/PhotoRepository.kt:127-131 | empty without recent searches; otherwise exactly the records of the first cached page of a most recently used query, in strictly ascending id order |
| PhotoRepository.GetPhotoById | app/src/main/java/com/diegocal/laboratorio6/repository/PhotoRepository.kt:138-166 | a cached id is answered from the cache with no request and no change; a miss makes one lookup request and returns its answer; a failure changes nothing |
| PhotoRepository.ObservePhotoById | app/src/main/java/com/diegocal/laboratorio6/repository/PhotoRepository.kt:171-173 | the record of the cached row with that id, none exactly when absent |
| PhotoRepository.IsFavorite | app/src/main/java/com/diegocal/laboratorio6/repository/PhotoRepository.kt:196-198 | true exactly when the photo is cached and a favourite |
| PhotoRepository.ToggleFavorite | app/src/main/java/com/diegocal/laboratorio6/repository/PhotoRepository.kt:180-184 | negates the flag of a cached photo and changes nothing else |
| PhotoRepository.SetFavorite | app/src/main/java/com/diegocal/laboratorio6/repository/PhotoRepository.kt:189-191 | a cached photo's row gets the given flag and keeps every other field; every other row is unchanged, and an uncached id changes nothing |
| PhotoRepository.GetFavoritePhotos | app/src/main/java/com/diegocal/laboratorio6/repository/PhotoRepository.kt:203-207 | exactly the records of the favourite rows, one per favourite id, with distinct ids, by non-increasing `updatedAt` of their rows |
| PhotoRepository.ClearCache | app/src/main/java/com/diegocal/laboratorio6/repository/PhotoRepository.kt:264-267 | exactly the favourite rows are left, unchanged |
| PhotoRepository.RefreshCache | app/src/main/java/com/diegocal/laboratorio6/repository/PhotoRepository.kt:272-276 | a row is kept exactly when its key is not the normalised query or it is a favourite |
| RepositoryProperties.CacheHitServesStoredPage | app/src/main/java/com/diegocal/laboratorio6/repository/PhotoRepository.kt:54-65 | a non-empty cached page is served from the cache, in id order, with `hasNextPage` set, with no request and no photo written |
| PhotoRepository.PagePhotoMembers | app/src/main/java/com/diegocal/laboratorio6/repository/PhotoRepository.kt:55-60 | the records of a cached page are exactly the records of its stored rows |
| RepositoryProperties.EntityIds | app/src/main/java/com/diegocal/laboratorio6/repository/PhotoRepository.kt:73-81 | the rows written carry exactly the fetched photos' ids |
| RepositoryProperties.StoredRowOfFetched | app/src/main/java/com/diegocal/laboratorio6/repository/PhotoRepository.kt:73-85 | after a page is written and swept, each fetched photo's row is that photo under the key and page, stamped `now`, with its previous flag |
| RepositoryProperties.FetchedPageIsStored | app/src/main/java/com/diegocal/laboratorio6/repository/PhotoRepository.kt:70-93 | a remote answer is returned as is with `hasNextPage` iff there is a next page, and each photo is cached under the normalised key and page with its previous flag |
| RepositoryProperties.SweepRemovesOnlyExpiredRows | app/src/main/java/com/diegocal/laboratorio6/repository/PhotoRepository.kt:82-85 | a search adds only fetched ids; of the other rows, exactly the expired ones of the key are removed and the rest are unchanged |
| RepositoryProperties.FailureFallsBackToCache | app/src/main/java/com/diegocal/laboratorio6/repository/PhotoRepository.kt:95-111 | on a remote failure a non-empty cached page is served with no next page, otherwise the error is returned; no photo is written |
| RepositoryProperties.SearchRecordsQuery | app/src/main/java/com/diegocal/laboratorio6/repository/PhotoRepository.kt:47-51 | a search keeps the recent list within ten entries, and a blank query leaves it unchanged |
| RepositoryProperties.LatestSearchIsLastSearched | app/src/main/java/com/diegocal/laboratorio6/repository/PhotoRepository.kt:214-226 | a non-blank query recorded later than all others is kept at `now` and is the last searched query |
| RepositoryProperties.LastSearchIsServedOffline | app/src/main/java/com/diegocal/laboratorio6/repository/PhotoRepository.kt:127-131 | after such a search of page 1, the offline read returns that query's cached first page |
| RepositoryProperties.SearchTwiceHitsCache | app/src/main/java/com/diegocal/laboratorio6/repository/PhotoRepository.kt:54-93 | after a search that yields photos, the next unforced search of the same key and page is a cache hit with no request |
| RepositoryProperties.SearchLeavesPage | app/src/main/java/com/diegocal/laboratorio6/repository/PhotoRepository.kt:54-93 | a search that yields photos leaves its page non-empty in the cache |
| RepositoryProperties.FetchedPageIsCached | app/src/main/java/com/diegocal/laboratorio6/repository/PhotoRepository.kt:82-85 | a non-empty page written by a search is found again under its key and page |
| RepositoryProperties.RefetchedPageHoldsAnswer | app/src/main/java/com/diegocal/laboratorio6/repository/PhotoRepository.kt:70-85 | when the page was empty, the page afterwards holds exactly the ids of the answer |
| RepositoryProperties.PageAfterStore | app/src/main/java/com/diegocal/laboratorio6/repository/PhotoRepository.kt:73-85 | writing a page that held no row leaves exactly the written ids on it |
| RepositoryProperties.NoRowOnEmptyPage | app/src/main/java/com/diegocal/laboratorio6/database/dao/PhotoDao.kt:41-46 | an empty page read means no row has that key and page |
| RepositoryProperties.RefreshThenSearchRefetches | app/src/main/java/com/diegocal/laboratorio6/repository/PhotoRepository.kt:272-276 | after `refreshCache`, an unforced search of a page with no favourite asks the remote catalog |
| RepositoryProperties.ClearThenSearchRefetches | app/src/main/java/com/diegocal/laboratorio6/repository/PhotoRepository.kt:264-267 | after `clearCache`, an unforced search of a page with no favourite asks the remote catalog |
| RepositoryProperties.FavoriteSurvivesSearch | app/src/main/java/com/diegocal/laboratorio6/repository/PhotoRepository.kt:73-85 | a favourite stays a favourite through any search |
| RepositoryProperties.ToggleThenRefetchKeepsFavorite | app/src/main/java/com/diegocal/laboratorio6/repository/PhotoRepository.kt:180-184 | a photo toggled to favourite stays one through a forced refetch |
| RepositoryProperties.NatureScenario | app/src/main/java/com/diegocal/laboratorio6/repository/PhotoRepository.kt:41-93 | the first search for "Nature" on an empty device caches every answered photo under "nature", page 1, as a non-favourite, and records "nature" alone |
| RepositoryProperties.FirstSearchOutcome | app/src/main/java/com/diegocal/laboratorio6/repository/PhotoRepository.kt:41-93 | the same for any non-blank query and page |
| RepositoryProperties.SaveIntoEmpty | app/src/main/java/com/diegocal/laboratorio6/repository/PhotoRepository.kt:214-226 | recording a non-blank query into an empty list leaves exactly its key at `now` |
| RepositoryProperties.PageIntoEmpty | app/src/main/java/com/diegocal/laboratorio6/repository/PhotoRepository.kt:73-85 | writing a page into an empty table leaves exactly its photos, as non-favourite rows of that key and page |
| RepositoryProperties.FetchedDetailIsCached | app/src/main/java/com/diegocal/laboratorio6/repository/PhotoRepository.kt:147-160 | a missed lookup answered by the catalog caches exactly that photo under `"detail"`, page 0, stamped `now`, with its previous flag; other rows unchanged |
| RepositoryProperties.SecondLookupHitsCache | app/src/main/java/com/diegocal/laboratorio6/repository/PhotoRepository.kt:138-160 | a lookup after one that cached the requested id is answered from the cache with the same photo |
| RepositoryProperties.ToggleNegates | app/src/main/java/com/diegocal/laboratorio6/repository/PhotoRepository.kt:180-184 | toggling negates what `isFavorite` reports for a cached photo |
| RepositoryProperties.ToggleTwiceRestores | app/src/main/java/com/diegocal/laboratorio6/repository/PhotoRepository.kt:180-184 | toggling twice restores the table |
| RepositoryProperties.ToggleAbsentIsNoOp | app/src/main/java/com/diegocal/laboratorio6/repository/PhotoRepository.kt:180-184 | toggling an absent id changes nothing |
| RepositoryProperties.ClearCacheKeepsFavorites | app/src/main/java/com/diegocal/laboratorio6/repository/PhotoRepository.kt:264-267 | `clearCache` keeps every favourite flag, and the favourite list under the model's tie-break by id |

## Left out

- The Compose UI, navigation, theme state and `MainActivity`: presentation only.
- HTTP and the JSON binding (`RetrofitPexels.kt`, `PexelsApiServices.kt`) are not part of this model. The catalog is the `Remote` oracle, and its failures are the abstract `ApiError`.
- `AppDatabase.kt` is not part of this model. Its singleton and locking are replaced by passing both tables explicitly.
- Coroutines and concurrency: every operation runs to completion on the tables it is given. Races between concurrent toggles, and the window between recording a query and pruning the list, are not modelled.
- Logging (`Log.d`, `Log.e`) has no effect on state and is left out.
- `Flow` and `PagingSource` reactivity is modelled as snapshot reads. Change notification and paging mechanics are left out.
- The clock is one reading `now` per operation. The source reads the clock separately for each row it builds, for the cutoff and for the recent search. Within one call these readings are taken to coincide.
- `PhotoWithFavorite` in `PhotoEntity.kt` is never used by the core and is left out.
- Storage failures are not modelled. Every DAO call succeeds, so only the remote outcome can send `searchPhotos` and `getPhotoById` to their `catch` blocks.
- Integer widths are not modelled. `Int` ids, pages and counts, and `Long` timestamps, are unbounded. The cutoff `now - CACHE_MAX_AGE_MS` cannot overflow in the model.
- RecentSearchEntities.NormalizeQuery: lower-cases ASCII letters only. Kotlin's `lowercase()` is full Unicode and can lengthen a string, so the length bound holds for the model, not for every Unicode input.
- PhotoDao.GetFavoritePhotos: the result order is fixed by a tie-break on id. SQLite leaves rows with equal `updatedAt` in an unspecified order, so the contract promises only the non-increasing `updatedAt` order. Equal timestamps can come in any order.
- RecentSearchDao.GetRecentSearchesList: ties on `lastUsedAt` are broken by query text. The contract promises only non-increasing times and that no omitted row is more recent, which holds whatever the tie order.
- RecentSearchDao.KeepOnlyRecentN: under ties at the boundary, SQLite may keep a different one of the equally recent queries. The contract promises only that no evicted row is more recent than a survivor.
- PhotoDao.FavoritesDependOnlyOnFavoriteRows: the two favourite listings are equal as sequences only because the model breaks `updatedAt` ties by id. SQLite promises only the same rows in non-increasing `updatedAt` order.
- PhotoDao.ClearCacheKeepsFavoriteList: the listing before and after `clearCache` is the same sequence only under the model's tie-break by id. Under SQLite, equally recent favourites may come back in another order.
- RepositoryProperties.ClearCacheKeepsFavorites: its listing clause relies on the same tie-break by id as PhotoDao.ClearCacheKeepsFavoriteList.
- RecentSearchDao.KeptAreListed: it assumes that the `DELETE`'s subquery and a later `SELECT` settle ties on `lastUsedAt` the same way, as the model's tie-break by query text does. SQLite does not promise that.
- `perPage` is passed through to the remote catalog unchanged. Its effect on the answer is the oracle's.

=== FILE: ordering.dfy ===
/**
 * Orderings used to model SQL `ORDER BY ... LIMIT n` over the rows of a table:
 * a finite set sorted under a strict total order, SQLite's LIMIT, and the
 * lexicographic order on strings used to break ties between queries.
 */
module Ordering {

  /** `lt` is a strict total order on the elements of `s`. */
  ghost predicate StrictTotalOn<K>(s: set<K>, lt: (K, K) -> bool)
  {
    && (forall a :: a in s ==> !lt(a, a))
    && (forall a, b, c :: a in s && b in s && c in s && lt(a, b) && lt(b, c) ==> lt(a, c))
    && (forall a, b :: a in s && b in s && a != b ==> lt(a, b) || lt(b, a))
  }

  /** `x` precedes every other element of `s`. */
  predicate IsLeast<K(==)>(s: set<K>, lt: (K, K) -> bool, x: K)
  {
    x in s && forall y :: y in s && y != x ==> lt(x, y)
  }

  lemma {:induction false} LeastExists<K>(s: set<K>, lt: (K, K) -> bool)
    requires s != {} && StrictTotalOn(s, lt)
    ensures exists x :: IsLeast(s, lt, x)
    decreases s
  {
    var a :| a in s;
    if s == {a} {
      assert IsLeast(s, lt, a);
    } else {
      var rest := s - {a};
      LeastExists(rest, lt);
      var b :| IsLeast(rest, lt, b);
      if lt(a, b) {
        assert IsLeast(s, lt, a);
      } else {
        assert IsLeast(s, lt, b);
      }
    }
  }

  /** The first element of `s` under `lt`. */
  function Least<K(==)>(s: set<K>, lt: (K, K) -> bool): (x: K)
    requires s != {} && StrictTotalOn(s, lt)
    ensures IsLeast(s, lt, x)
  {
    LeastExists(s, lt);
    var x :| IsLeast(s, lt, x);
    x
  }

  /** Each element of `r` precedes every later one under `lt`. */
  ghost predicate SortedBy<K>(r: seq<K>, lt: (K, K) -> bool)
  {
    forall i, j :: 0 <= i < j < |r| ==> lt(r[i], r[j])
  }

  /** The elements of `s` listed in strictly increasing `lt` order. */
  function Sort<K(==,!new)>(s: set<K>, lt: (K, K) -> bool): (r: seq<K>)
    requires StrictTotalOn(s, lt)
    ensures |r| == |s|
    ensures forall x :: x in r <==> x in s
    ensures SortedBy(r, lt)
    decreases s
  {
    if s == {} then []
    else
      var x := Least(s, lt);
      [x] + Sort(s - {x}, lt)
  }

  /** SQLite's `LIMIT n`: a negative `n` imposes no limit. */
  function Limit<T>(r: seq<T>, n: int): seq<T>
  {
    if 0 <= n < |r| then r[..n] else r
  }

  /** Lexicographic order on strings by character code. */
  predicate StrLess(a: string, b: string)
  {
    if |a| == 0 then |b| > 0
    else if |b| == 0 then false
    else a[0] < b[0] || (a[0] == b[0] && StrLess(a[1..], b[1..]))
  }

  lemma {:induction false} StrLessIrreflexive(a: string)
    ensures !StrLess(a, a)
  {
    if |a| > 0 {
      StrLessIrreflexive(a[1..]);
    }
  }

  lemma {:induction false} StrLessTransitive(a: string, b: string, c: string)
    requires StrLess(a, b) && StrLess(b, c)
    ensures StrLess(a, c)
  {
    if |a| > 0 && |b| > 0 && |c| > 0 && a[0] == b[0] == c[0] {
      StrLessTransitive(a[1..], b[1..], c[1..]);
    }
  }

  lemma {:induction false} StrLessTotal(a: string, b: string)
    requires a != b
    ensures StrLess(a, b) || StrLess(b, a)
  {
    if |a| > 0 && |b| > 0 && a[0] == b[0] {
      assert a == [a[0]] + a[1..] && b == [b[0]] + b[1..];
      StrLessTotal(a[1..], b[1..]);
    }
  }

  /** The lexicographic order is a strict total order on every set of strings. */
  lemma StrLessStrictTotal(s: set<string>)
    ensures StrictTotalOn(s, (a: string, b: string) => StrLess(a, b))
  {
    forall a | a in s
      ensures !StrLess(a, a)
    {
      StrLessIrreflexive(a);
    }
    forall a, b, c | a in s && b in s && c in s && StrLess(a, b) && StrLess(b, c)
      ensures StrLess(a, c)
    {
      StrLessTransitive(a, b, c);
    }
    forall a, b | a in s && b in s && a != b
      ensures StrLess(a, b) || StrLess(b, a)
    {
      StrLessTotal(a, b);
    }
  }

  /** A sequence without repetitions has as many elements as its set. */
  lemma {:induction false} DistinctSetSize<T>(r: seq<T>)
    requires forall i, j :: 0 <= i < j < |r| ==> r[i] != r[j]
    ensures |set x | x in r| == |r|
  {
    if |r| > 0 {
      DistinctSetSize(r[1..]);
      assert (set x | x in r) == {r[0]} + (set x | x in r[1..]);
      assert r[0] !in r[1..];
    }
  }

  /** A sequence sorted under a strict order has no repetitions. */
  lemma SortedDistinct<K>(a: seq<K>, s: set<K>, lt: (K, K) -> bool)
    requires StrictTotalOn(s, lt)
    requires forall x :: x in a ==> x in s
    requires SortedBy(a, lt)
    ensures forall i, j :: 0 <= i < j < |a| ==> a[i] != a[j]
  {
    forall i, j | 0 <= i < j < |a|
      ensures a[i] != a[j]
    {
      assert a[i] in s && lt(a[i], a[j]);
    }
  }

  /** The tail of a repetition-free sequence holds all but its head. */
  lemma TailElements<K>(a: seq<K>)
    requires a != []
    requires forall i, j :: 0 <= i < j < |a| ==> a[i] != a[j]
    ensures forall y :: y in a[1..] <==> y in a && y != a[0]
  {
    forall y | y in a && y != a[0]
      ensures y in a[1..]
    {
      var k :| 0 <= k < |a| && a[k] == y;
      assert a[1..][k - 1] == y;
    }
  }

  /** A sorted listing of `s` starts with the least element of `s`. */
  lemma {:induction false} SortedHeadIsLeast<K>(a: seq<K>, s: set<K>, lt: (K, K) -> bool)
    requires StrictTotalOn(s, lt)
    requires forall x :: x in a <==> x in s
    requires SortedBy(a, lt) && a != []
    ensures IsLeast(s, lt, a[0])
  {
    forall y | y in s && y != a[0]
      ensures lt(a[0], y)
    {
      var k :| 0 <= k < |a| && a[k] == y;
    }
  }

  /** The least element of a set is unique. */
  lemma {:induction false} LeastUnique<K>(s: set<K>, lt: (K, K) -> bool, x: K, y: K)
    requires StrictTotalOn(s, lt) && IsLeast(s, lt, x) && IsLeast(s, lt, y)
    ensures x == y
  {
  }

  /** The tail of a sorted listing of `s` is a sorted listing of `s` without its head. */
  lemma {:induction false} SortedTail<K>(a: seq<K>, s: set<K>, lt: (K, K) -> bool)
    requires StrictTotalOn(s, lt)
    requires forall x :: x in a <==> x in s
    requires SortedBy(a, lt) && a != []
    ensures StrictTotalOn(s - {a[0]}, lt)
    ensures forall x :: x in a[1..] <==> x in s - {a[0]}
    ensures SortedBy(a[1..], lt)
  {
    SortedDistinct(a, s, lt);
    TailElements(a);
  }

  /**
   * Sorting is deterministic: two sequences sorted under the same strict
   * total order and holding the same elements are equal.
   */
  lemma {:induction false} SortedUnique<K>(a: seq<K>, b: seq<K>, s: set<K>, lt: (K, K) -> bool)
    requires StrictTotalOn(s, lt)
    requires forall x :: x in a <==> x in s
    requires forall x :: x in b <==> x in s
    requires SortedBy(a, lt) && SortedBy(b, lt)
    ensures a == b
    decreases |a|
  {
    if a != [] || b != [] {
      var w := if a != [] then a[0] else b[0];
      assert w in a && w in b;
      SortedHeadIsLeast(a, s, lt);
      SortedHeadIsLeast(b, s, lt);
      LeastUnique(s, lt, a[0], b[0]);
      SortedTail(a, s, lt);
      SortedTail(b, s, lt);
      SortedUnique(a[1..], b[1..], s - {a[0]}, lt);
      assert a == [a[0]] + a[1..] && b == [b[0]] + b[1..];
    }
  }
}

=== FILE: pexels_models.dfy ===
/** The records the remote photo catalog returns. */
module PexelsModels {
  import opened Wrappers

  /** The four image-variant URLs of a photo (JSON object `src`). */
  datatype PhotoSrc = PhotoSrc(original: string, large: string, medium: string, small: string)

  /** One catalog photo; `imageUrl` is bound to the JSON field `src`. */
  datatype Photo = Photo(
    id: int,
    width: int,
    height: int,
    url: string,
    photographer: string,
    imageUrl: PhotoSrc)

  /** A page of search results; `nextPageUrl` is the nullable JSON field `next_page`. */
  datatype PexelsResponse = PexelsResponse(photos: seq<Photo>, nextPageUrl: Option<string>)
}

=== FILE: photo_dao.dfy ===
/**
 * The `photos` table and every statement of its data-access object, each as a
 * pure function from the table before to the rows read or the table after.
 * The paging and observable variants are read as snapshots of the table.
 */
module PhotoDao {
  import opened Wrappers
  import opened Ordering
  import opened PhotoEntities

  /** Every row is stored under its own `id`, the table's primary key. */
  ghost predicate KeyedById(m: map<int, PhotoEntity>)
  {
    forall id :: id in m ==> m[id].id == id
  }

  /** The table: at most one row per photo id, whatever query it came from. */
  type PhotoTable = m: map<int, PhotoEntity> | KeyedById(m) witness map[]

  /** `e` is a row of `t`. */
  predicate Stored(t: PhotoTable, e: PhotoEntity)
  {
    e.id in t && t[e.id] == e
  }

  /** Every row of `r` is a row of `t`, unchanged. */
  ghost predicate SubTable(r: PhotoTable, t: PhotoTable)
  {
    forall id :: id in r ==> id in t && r[id] == t[id]
  }

  /** Every favourite row of `t` is still in `r`, unchanged. */
  ghost predicate KeepsFavorites(t: PhotoTable, r: PhotoTable)
  {
    forall id :: id in t && t[id].isFavorite ==> id in r && r[id] == t[id]
  }

  // ==================== insertion ====================

  /** `insertPhoto` with `OnConflictStrategy.REPLACE`. */
  function InsertPhoto(t: PhotoTable, e: PhotoEntity): (r: PhotoTable)
    ensures r.Keys == t.Keys + {e.id}
    ensures Stored(r, e)
    ensures forall id :: id in t && id != e.id ==> r[id] == t[id]
  {
    t[e.id := e]
  }

  /** The ids of a batch of rows. */
  function IdsOf(es: seq<PhotoEntity>): set<int>
  {
    set e | e in es :: e.id
  }

  /** No later row of the batch has the same id as `es[i]`. */
  predicate LastWithId(es: seq<PhotoEntity>, i: int)
    requires 0 <= i < |es|
  {
    forall j :: i < j < |es| ==> es[j].id != es[i].id
  }

  /**
   * `insertPhotos` with `OnConflictStrategy.REPLACE`: the rows are written in
   * order, so for each id the last row of the batch with that id wins.
   */
  function InsertPhotos(t: PhotoTable, es: seq<PhotoEntity>): (r: PhotoTable)
    ensures r.Keys == t.Keys + IdsOf(es)
    ensures forall id :: id in t && id !in IdsOf(es) ==> r[id] == t[id]
    ensures forall i :: 0 <= i < |es| && LastWithId(es, i) ==> Stored(r, es[i])
    decreases |es|
  {
    if es == [] then t
    else
      BatchTail(es);
      InsertPhotos(InsertPhoto(t, es[0]), es[1..])
  }

  /** How the ids and the last rows of a batch relate to those of its tail. */
  lemma {:induction false} BatchTail(es: seq<PhotoEntity>)
    requires es != []
    ensures IdsOf(es) == {es[0].id} + IdsOf(es[1..])
    ensures forall i :: 1 <= i < |es| && LastWithId(es, i) ==> LastWithId(es[1..], i - 1)
  {
    assert es == [es[0]] + es[1..];
  }

  /** Every id of a batch has a last row carrying it. */
  lemma {:induction false} LastOccurrence(es: seq<PhotoEntity>, i: int)
    requires 0 <= i < |es|
    ensures exists j :: i <= j < |es| && es[j].id == es[i].id && LastWithId(es, j)
    decreases |es| - i
  {
    if !LastWithId(es, i) {
      var j :| i < j < |es| && es[j].id == es[i].id;
      LastOccurrence(es, j);
    }
  }

  /** The row stored for an id of the batch is one of the batch's rows. */
  lemma {:induction false} StoredFromBatch(t: PhotoTable, es: seq<PhotoEntity>, id: int)
    requires id in IdsOf(es)
    ensures exists j :: 0 <= j < |es| && es[j].id == id && InsertPhotos(t, es)[id] == es[j]
  {
    var e :| e in es && e.id == id;
    var i :| 0 <= i < |es| && es[i] == e;
    LastOccurrence(es, i);
  }

  // ==================== reads ====================

  /** The rows of `t` at the given ids, in that order. */
  function RowsAt(t: PhotoTable, ids: seq<int>): (rows: seq<PhotoEntity>)
    requires forall i :: 0 <= i < |ids| ==> ids[i] in t
    ensures |rows| == |ids|
    ensures forall i :: 0 <= i < |ids| ==> rows[i] == t[ids[i]]
  {
    seq(|ids|, i requires 0 <= i < |ids| => t[ids[i]])
  }

  /** A listing of a set of ids of `t` lists only ids of `t`. */
  lemma {:induction false} ListedIdsStored(t: PhotoTable, ids: seq<int>, s: set<int>)
    requires forall x :: x in ids <==> x in s
    requires s <= t.Keys
    ensures forall i :: 0 <= i < |ids| ==> ids[i] in t
  {
    forall i | 0 <= i < |ids|
      ensures ids[i] in t
    {
      var x := ids[i];
      assert x in ids;
    }
  }

  /** Reading the rows at a listing of a set of ids yields exactly the rows of `t` with those ids. */
  lemma {:induction false} RowsAtMembers(t: PhotoTable, ids: seq<int>, s: set<int>)
    requires forall x :: x in ids <==> x in s
    requires s <= t.Keys
    ensures forall i :: 0 <= i < |ids| ==> ids[i] in t
    ensures forall e :: e in RowsAt(t, ids) <==> Stored(t, e) && e.id in s
  {
    ListedIdsStored(t, ids, s);
    var rows := RowsAt(t, ids);
    forall e | Stored(t, e) && e.id in s
      ensures e in rows
    {
      var i :| 0 <= i < |ids| && ids[i] == e.id;
      assert rows[i] == e;
    }
    forall e | e in rows
      ensures Stored(t, e) && e.id in s
    {
      var i :| 0 <= i < |rows| && rows[i] == e;
      var x := ids[i];
      assert x in ids;
    }
  }

  /** `ORDER BY id ASC`. */
  function IdOrder(): (lt: (int, int) -> bool)
    ensures forall a, b :: lt(a, b) <==> a < b
  {
    (a: int, b: int) => a < b
  }

  /** `ORDER BY pageIndex ASC, id ASC` over the rows of `t`. */
  function PageOrder(t: PhotoTable): (lt: (int, int) -> bool)
    ensures forall a, b :: a in t && b in t ==>
              (lt(a, b) <==> t[a].pageIndex < t[b].pageIndex || (t[a].pageIndex == t[b].pageIndex && a < b))
  {
    (a: int, b: int) => a in t && b in t &&
      (t[a].pageIndex < t[b].pageIndex || (t[a].pageIndex == t[b].pageIndex && a < b))
  }

  /** `ORDER BY updatedAt DESC` over the rows of `t`, ties broken by id. */
  function RecentFirstOrder(t: PhotoTable): (lt: (int, int) -> bool)
    ensures forall a, b :: a in t && b in t ==>
              (lt(a, b) <==> t[a].updatedAt > t[b].updatedAt || (t[a].updatedAt == t[b].updatedAt && a < b))
  {
    (a: int, b: int) => a in t && b in t &&
      (t[a].updatedAt > t[b].updatedAt || (t[a].updatedAt == t[b].updatedAt && a < b))
  }

  lemma OrdersAreStrictTotal(t: PhotoTable, s: set<int>)
    requires s <= t.Keys
    ensures StrictTotalOn(s, IdOrder())
    ensures StrictTotalOn(s, PageOrder(t))
    ensures StrictTotalOn(s, RecentFirstOrder(t))
  {
  }

  /** The ids of the rows stored under `queryKey` at `page`. */
  function PageIds(t: PhotoTable, queryKey: string, page: int): set<int>
  {
    set id | id in t && t[id].queryKey == queryKey && t[id].pageIndex == page
  }

  /** `getPhotosByQueryAndPage`: one cached page, in ascending id order. */
  function GetPhotosByQueryAndPage(t: PhotoTable, queryKey: string, page: int): (rows: seq<PhotoEntity>)
    ensures forall e :: e in rows <==> Stored(t, e) && e.queryKey == queryKey && e.pageIndex == page
    ensures forall i, j :: 0 <= i < j < |rows| ==> rows[i].id < rows[j].id
  {
    var ids := PageIdsInOrder(t, queryKey, page);
    RowsAtMembers(t, ids, PageIds(t, queryKey, page));
    RowsAt(t, ids)
  }

  /** The ids of one cached page, ascending. */
  function PageIdsInOrder(t: PhotoTable, queryKey: string, page: int): (ids: seq<int>)
    ensures forall x :: x in ids <==> x in PageIds(t, queryKey, page)
    ensures forall i, j :: 0 <= i < j < |ids| ==> ids[i] < ids[j]
  {
    var s := PageIds(t, queryKey, page);
    OrdersAreStrictTotal(t, s);
    Sort(s, IdOrder())
  }

  /** The ids of the rows stored under `queryKey`. */
  function QueryIds(t: PhotoTable, queryKey: string): set<int>
  {
    set id | id in t && t[id].queryKey == queryKey
  }

  /** `getPhotosByQueryPaging` read as a snapshot: every page of one query, by page then id. */
  function GetPhotosByQueryPaging(t: PhotoTable, queryKey: string): (rows: seq<PhotoEntity>)
    ensures forall e :: e in rows <==> Stored(t, e) && e.queryKey == queryKey
    ensures forall i, j :: 0 <= i < j < |rows| ==>
              rows[i].pageIndex < rows[j].pageIndex
              || (rows[i].pageIndex == rows[j].pageIndex && rows[i].id < rows[j].id)
  {
    var ids := QueryIdsInOrder(t, queryKey);
    RowsAtMembers(t, ids, QueryIds(t, queryKey));
    PageOrderRows(t, ids);
    RowsAt(t, ids)
  }

  /** The ids of every cached page of one query, by page then id. */
  function QueryIdsInOrder(t: PhotoTable, queryKey: string): (ids: seq<int>)
    ensures forall x :: x in ids <==> x in QueryIds(t, queryKey)
    ensures SortedBy(ids, PageOrder(t))
    ensures |ids| == |QueryIds(t, queryKey)|
  {
    var s := QueryIds(t, queryKey);
    OrdersAreStrictTotal(t, s);
    Sort(s, PageOrder(t))
  }

  /** Rows read at ids sorted by `PageOrder` come by page, then by id. */
  lemma {:induction false} PageOrderRows(t: PhotoTable, ids: seq<int>)
    requires forall i :: 0 <= i < |ids| ==> ids[i] in t
    requires SortedBy(ids, PageOrder(t))
    ensures forall i, j :: 0 <= i < j < |ids| ==>
              RowsAt(t, ids)[i].pageIndex < RowsAt(t, ids)[j].pageIndex
              || (RowsAt(t, ids)[i].pageIndex == RowsAt(t, ids)[j].pageIndex
                  && RowsAt(t, ids)[i].id < RowsAt(t, ids)[j].id)
  {
    var rows := RowsAt(t, ids);
    forall i, j | 0 <= i < j < |ids|
      ensures rows[i].pageIndex < rows[j].pageIndex
              || (rows[i].pageIndex == rows[j].pageIndex && rows[i].id < rows[j].id)
    {
      assert PageOrder(t)(ids[i], ids[j]);
      assert rows[i].id == ids[i] && rows[j].id == ids[j];
    }
  }

  /** `getPhotosCountForQuery`: as many as the snapshot of that query lists. */
  function GetPhotosCountForQuery(t: PhotoTable, queryKey: string): (n: int)
    ensures n == |GetPhotosByQueryPaging(t, queryKey)|
  {
    |QueryIds(t, queryKey)|
  }

  /** `getPhotoById` (and `observePhotoById` read as a snapshot). */
  function GetPhotoById(t: PhotoTable, id: int): (r: Option<PhotoEntity>)
    ensures r.Some? <==> id in t
    ensures r.Some? ==> Stored(t, r.value) && r.value.id == id
  {
    if id in t then Some(t[id]) else None
  }

  /** `isFavorite`: the flag of the row with that id, none when absent. */
  function IsFavorite(t: PhotoTable, id: int): (r: Option<bool>)
    ensures r.Some? <==> GetPhotoById(t, id).Some?
    ensures r.Some? ==> r.value == GetPhotoById(t, id).value.isFavorite
  {
    if id in t then Some(t[id].isFavorite) else None
  }

  /** The ids of the favourite rows. */
  function FavoriteIds(t: PhotoTable): set<int>
  {
    set id | id in t && t[id].isFavorite
  }

  /**
   * `getFavoritePhotos` (and its paging variant) read as a snapshot: the
   * favourite rows, most recently updated first.
   */
  function GetFavoritePhotos(t: PhotoTable): (rows: seq<PhotoEntity>)
    ensures forall e :: e in rows <==> Stored(t, e) && e.isFavorite
    ensures |rows| == |FavoriteIds(t)|
    ensures forall i, j :: 0 <= i < j < |rows| ==>
              rows[i].updatedAt >= rows[j].updatedAt && rows[i].id != rows[j].id
  {
    var ids := FavoritesByRecency(t);
    RowsAtMembers(t, ids, FavoriteIds(t));
    RecentFirstRows(t, ids);
    RowsAt(t, ids)
  }

  /** The ids of the favourite rows, most recently updated first. */
  function FavoritesByRecency(t: PhotoTable): (ids: seq<int>)
    ensures forall x :: x in ids <==> x in FavoriteIds(t)
    ensures |ids| == |FavoriteIds(t)|
    ensures SortedBy(ids, RecentFirstOrder(t))
  {
    var s := FavoriteIds(t);
    OrdersAreStrictTotal(t, s);
    Sort(s, RecentFirstOrder(t))
  }

  /** Rows read at ids sorted by `RecentFirstOrder` come most recently updated first. */
  lemma {:induction false} RecentFirstRows(t: PhotoTable, ids: seq<int>)
    requires forall i :: 0 <= i < |ids| ==> ids[i] in t
    requires SortedBy(ids, RecentFirstOrder(t))
    ensures forall i, j :: 0 <= i < j < |ids| ==>
              RowsAt(t, ids)[i].updatedAt >= RowsAt(t, ids)[j].updatedAt
              && RowsAt(t, ids)[i].id != RowsAt(t, ids)[j].id
  {
    var rows := RowsAt(t, ids);
    forall i, j | 0 <= i < j < |ids|
      ensures rows[i].updatedAt >= rows[j].updatedAt && rows[i].id != rows[j].id
    {
      assert RecentFirstOrder(t)(ids[i], ids[j]);
      assert rows[i].id == ids[i] && rows[j].id == ids[j];
    }
  }

  // ==================== updates ====================

  /**
   * `updateFavoriteStatus`: sets the flag of the row with that id and nothing
   * else; an absent id matches no row.
   */
  function UpdateFavoriteStatus(t: PhotoTable, id: int, isFavorite: bool): (r: PhotoTable)
    ensures r.Keys == t.Keys
    ensures forall x :: x in t && x != id ==> r[x] == t[x]
    ensures id in t ==> r[id] == t[id].(isFavorite := isFavorite)
    ensures id in t ==> IsFavorite(r, id) == Some(isFavorite)
    ensures id !in t ==> r == t
  {
    if id in t then t[id := t[id].(isFavorite := isFavorite)] else t
  }

  // ==================== deletes ====================

  /** The rows the expiry sweep removes: this key, not favourite, written before `cutoff`. */
  predicate Expired(e: PhotoEntity, queryKey: string, cutoff: int)
  {
    e.queryKey == queryKey && !e.isFavorite && e.updatedAt < cutoff
  }

  /**
   * `deleteOldPhotosForQuery`. Its second argument is named `maxAge` in the
   * source but is compared with `updatedAt`, so it is a cutoff timestamp.
   */
  function DeleteOldPhotosForQuery(t: PhotoTable, queryKey: string, cutoff: int): (r: PhotoTable)
    ensures SubTable(r, t)
    ensures KeepsFavorites(t, r)
    ensures forall id :: id in t ==> (id in r <==> !Expired(t[id], queryKey, cutoff))
  {
    map id | id in t && !Expired(t[id], queryKey, cutoff) :: t[id]
  }

  /** `deletePhotosForQuery`: drops the non-favourite rows of one query. */
  function DeletePhotosForQuery(t: PhotoTable, queryKey: string): (r: PhotoTable)
    ensures SubTable(r, t)
    ensures KeepsFavorites(t, r)
    ensures forall id :: id in t && t[id].queryKey != queryKey ==> id in r
    ensures forall id :: id in r ==> r[id].queryKey != queryKey || r[id].isFavorite
  {
    map id | id in t && (t[id].queryKey != queryKey || t[id].isFavorite) :: t[id]
  }

  /** `deleteAllPhotosForQuery`: drops every row of one query, favourites included. */
  function DeleteAllPhotosForQuery(t: PhotoTable, queryKey: string): (r: PhotoTable)
    ensures SubTable(r, t)
    ensures forall id :: id in t && t[id].queryKey != queryKey ==> id in r
    ensures forall id :: id in r ==> r[id].queryKey != queryKey
  {
    map id | id in t && t[id].queryKey != queryKey :: t[id]
  }

  /** `clearCache`: keeps exactly the favourite rows. */
  function ClearCache(t: PhotoTable): (r: PhotoTable)
    ensures SubTable(r, t)
    ensures KeepsFavorites(t, r)
    ensures forall id :: id in r ==> r[id].isFavorite
  {
    map id | id in t && t[id].isFavorite :: t[id]
  }

  /** `deleteAll`: empties the table. */
  function DeleteAll(t: PhotoTable): (r: PhotoTable)
    ensures forall id :: id !in r
  {
    map[]
  }

  // ==================== properties ====================

  /** Reading the same ids from two tables that agree on them gives the same rows. */
  lemma {:induction false} RowsAtAgree(t: PhotoTable, u: PhotoTable, ids: seq<int>)
    requires forall i :: 0 <= i < |ids| ==> ids[i] in t && ids[i] in u && t[ids[i]] == u[ids[i]]
    ensures RowsAt(t, ids) == RowsAt(u, ids)
  {
    var x, y := RowsAt(t, ids), RowsAt(u, ids);
    forall i | 0 <= i < |ids|
      ensures x[i] == y[i]
    {
    }
  }

  /** Tables that agree on the favourite rows have the same favourite ids. */
  lemma {:induction false} SameFavoriteIds(t: PhotoTable, u: PhotoTable)
    requires KeepsFavorites(t, u) && KeepsFavorites(u, t)
    ensures FavoriteIds(t) == FavoriteIds(u)
  {
    forall x
      ensures x in FavoriteIds(t) <==> x in FavoriteIds(u)
    {
      if x in t && t[x].isFavorite {
        assert x in u && u[x] == t[x];
      }
      if x in u && u[x].isFavorite {
        assert x in t && t[x] == u[x];
      }
    }
  }

  /** Two tables that agree on the favourite rows list the same favourites. */
  lemma {:induction false} FavoritesDependOnlyOnFavoriteRows(t: PhotoTable, u: PhotoTable)
    requires KeepsFavorites(t, u) && KeepsFavorites(u, t)
    ensures GetFavoritePhotos(t) == GetFavoritePhotos(u)
  {
    var s := FavoriteIds(t);
    SameFavoriteIds(t, u);
    OrdersAreStrictTotal(t, s);
    var a, b := FavoritesByRecency(t), FavoritesByRecency(u);
    SameOrderOnFavorites(t, u, b);
    SortedUnique(a, b, s, RecentFirstOrder(t));
    forall i | 0 <= i < |a|
      ensures a[i] in t && a[i] in u && t[a[i]] == u[a[i]]
    {
      var x := a[i];
      assert x in a;
    }
    RowsAtAgree(t, u, a);
  }

  /** A listing of favourites sorted by one table's recency order is sorted by the other's. */
  lemma {:induction false} SameOrderOnFavorites(t: PhotoTable, u: PhotoTable, b: seq<int>)
    requires KeepsFavorites(t, u) && KeepsFavorites(u, t)
    requires forall x :: x in b ==> x in FavoriteIds(t)
    requires SortedBy(b, RecentFirstOrder(u))
    ensures SortedBy(b, RecentFirstOrder(t))
  {
    forall i, j | 0 <= i < j < |b|
      ensures RecentFirstOrder(t)(b[i], b[j])
    {
      var x, y := b[i], b[j];
      assert x in b && y in b;
      assert t[x] == u[x] && t[y] == u[y];
      assert RecentFirstOrder(u)(x, y);
    }
  }

  /** Clearing the cache leaves the favourite list as it was. */
  lemma ClearCacheKeepsFavoriteList(t: PhotoTable)
    ensures GetFavoritePhotos(ClearCache(t)) == GetFavoritePhotos(t)
  {
    FavoritesDependOnlyOnFavoriteRows(t, ClearCache(t));
  }

  /** Setting a row's flag and reading it back gives the flag set. */
  lemma UpdateThenRead(t: PhotoTable, id: int, v: bool)
    ensures IsFavorite(UpdateFavoriteStatus(t, id, v), id) == (if id in t then Some(v) else None)
  {
  }
}

=== FILE: photo_entity.dfy ===
/** The cached photo row and its conversions to and from the catalog record. */
module PhotoEntities {
  import opened PexelsModels

  /**
   * A row of the `photos` table. `id` is the primary key; `queryKey` and
   * `pageIndex` say under which normalised query and page the copy was
   * stored, `updatedAt` is the time of the last write in milliseconds.
   */
  datatype PhotoEntity = PhotoEntity(
    id: int,
    width: int,
    height: int,
    photographer: string,
    url: string,
    originalUrl: string,
    largeUrl: string,
    mediumUrl: string,
    smallUrl: string,
    queryKey: string,
    pageIndex: int,
    isFavorite: bool,
    updatedAt: int)

  /**
   * `Photo.toEntity`: the row that caches `p` under `queryKey`/`pageIndex`,
   * stamped with the clock reading `now`; not a favourite unless told so.
   */
  function ToEntity(p: Photo, queryKey: string, pageIndex: int, now: int, isFavorite: bool := false): (e: PhotoEntity)
    ensures ToPhoto(e) == p
    ensures e.queryKey == queryKey && e.pageIndex == pageIndex
    ensures e.isFavorite == isFavorite && e.updatedAt == now
  {
    PhotoEntity(
      p.id, p.width, p.height, p.photographer, p.url,
      p.imageUrl.original, p.imageUrl.large, p.imageUrl.medium, p.imageUrl.small,
      queryKey, pageIndex, isFavorite, now)
  }

  /** `PhotoEntity.toPhoto`: the catalog record a cached row stands for. */
  function ToPhoto(e: PhotoEntity): (p: Photo)
    ensures p.id == e.id
  {
    Photo(e.id, e.width, e.height, e.url, e.photographer,
          PhotoSrc(e.originalUrl, e.largeUrl, e.mediumUrl, e.smallUrl))
  }

  /** `ToEntity` without an explicit flag stores a non-favourite row. */
  lemma DefaultIsNotFavorite(p: Photo, queryKey: string, pageIndex: int, now: int)
    ensures !ToEntity(p, queryKey, pageIndex, now).isFavorite
  {
  }

  /**
   * Converting a row back and re-caching it under its own key, page and
   * flag rebuilds the row, apart from the new `updatedAt` stamp.
   */
  lemma EntityRoundTrip(e: PhotoEntity, now: int)
    ensures ToEntity(ToPhoto(e), e.queryKey, e.pageIndex, now, e.isFavorite) == e.(updatedAt := now)
  {
  }

  /** Two rows with the same catalog content map to the same record. */
  lemma ToPhotoIgnoresCacheMetadata(e: PhotoEntity, queryKey: string, pageIndex: int, isFavorite: bool, now: int)
    ensures ToPhoto(e.(queryKey := queryKey, pageIndex := pageIndex, isFavorite := isFavorite, updatedAt := now)) == ToPhoto(e)
  {
  }

  /** `list.map { it.toPhoto() }`. */
  function ToPhotos(es: seq<PhotoEntity>): (ps: seq<Photo>)
    ensures |ps| == |es|
    ensures forall i :: 0 <= i < |es| ==> ps[i] == ToPhoto(es[i])
  {
    seq(|es|, i requires 0 <= i < |es| => ToPhoto(es[i]))
  }
}

=== FILE: photo_repository.dfy ===
/**
 * The cache-first photo repository, one pure function per operation. The two
 * operations that reach the remote catalog, `SearchPhotos` and
 * `GetPhotoById`, take both store states, the catalog (an oracle) and the
 * clock reading `now`, and return an `Outcome`: the caller's result, the new
 * store states and the remote requests made. Every other operation takes and
 * returns only the store it reads or writes, plus `now` where it stamps or
 * expires rows.
 */
module PhotoRepository {
  import opened Wrappers
  import opened PexelsModels
  import opened PhotoEntities
  import opened PhotoDao
  import opened RecentSearchEntities
  import opened RecentSearchDao

  /** `CACHE_MAX_AGE_MS`: 24 hours. */
  const CacheMaxAgeMs: int := 24 * 60 * 60 * 1000

  /** The bound `saveRecentSearch` keeps the recent-search list to, and the default `limit` of `getRecentSearches`. */
  const RecentSearchLimit: int := 10

  /** The default `perPage` of `searchPhotos`. */
  const DefaultPerPage: int := 15

  /** The key and page under which photos fetched by id are cached. */
  const DetailQueryKey: string := "detail"
  const DetailPageIndex: int := 0

  /** The first page, the one the offline shortcut reads. */
  const FirstPage: int := 1

  /** Why a remote request failed; the transport details are not modelled. */
  datatype ApiError = NetworkError | HttpError(code: int) | MalformedResponse

  /** The remote catalog: its answer to a search and to a lookup by id. */
  datatype Remote = Remote(
    search: (string, int, int) -> Result<PexelsResponse, ApiError>,
    photo: int -> Result<Photo, ApiError>)

  /** A request sent to the remote catalog. */
  datatype RemoteCall = SearchCall(query: string, page: int, perPage: int) | PhotoCall(id: int)

  /** Both stores of the local database. */
  datatype Db = Db(photos: PhotoTable, recents: RecentTable)

  /** `SearchResult`. */
  datatype SearchResult = SearchResult(photos: seq<Photo>, hasNextPage: bool, fromCache: bool)

  /** The result of a repository operation, the database after it, and the remote requests it made. */
  datatype Outcome<T> = Outcome(result: Result<T, ApiError>, db: Db, calls: seq<RemoteCall>)

  // ==================== recent searches ====================

  /**
   * `saveRecentSearch`: records the normalised query at `now` unless it is
   * blank, then prunes the list to the ten most recent entries.
   */
  function SaveRecentSearch(t: RecentTable, query: string, now: int): (r: RecentTable)
    ensures IsBlank(NormalizeQuery(query)) ==> r == t
    ensures !IsBlank(NormalizeQuery(query)) ==> IsRecorded(t, NormalizeQuery(query), now, r)
    ensures !IsBlank(NormalizeQuery(query)) ==> |r| <= RecentSearchLimit
    ensures forall q :: q in r ==> (q == NormalizeQuery(query) && r[q] == now) || (q in t && r[q] == t[q])
  {
    var key := NormalizeQuery(query);
    if IsBlank(key) then t
    else
      RecordedSearchFacts(t, key, now);
      KeepOnlyRecentN(InsertRecentSearch(t, RecentSearchEntity(key, now)), RecentSearchLimit)
  }

  /**
   * `r` is `t` with `key` recorded at `now` and pruned to the limit: it has
   * `min(limit, |u|)` entries, where `u` is `t` with the key recorded, and no
   * entry of `u` it drops is more recent than one it keeps; every kept entry
   * has its time in `u`, so a re-recorded key carries `now`.
   */
  predicate IsRecorded(t: RecentTable, key: string, now: int, r: RecentTable)
  {
    var u := t[key := now];
    && r.Keys <= u.Keys
    && |r| == (if |u| > RecentSearchLimit then RecentSearchLimit else |u|)
    && (forall q, p :: q in u && q !in r && p in r ==> u[q] <= u[p])
    && (forall q :: q in r ==> r[q] == u[q])
  }

  /** Recording `key` and pruning: the size, the eviction order and where each kept entry comes from. */
  lemma {:induction false} RecordedSearchFacts(t: RecentTable, key: string, now: int)
    ensures var r := KeepOnlyRecentN(InsertRecentSearch(t, RecentSearchEntity(key, now)), RecentSearchLimit);
      && IsRecorded(t, key, now, r)
      && (forall q :: q in r ==> (q == key && r[q] == now) || (q in t && r[q] == t[q]))
  {
  }

  /** `searches.map { it.query }`. */
  function QueryList(rows: seq<RecentSearchEntity>): (qs: seq<string>)
    ensures |qs| == |rows|
    ensures forall i :: 0 <= i < |rows| ==> qs[i] == rows[i].query
    ensures forall q :: q in QueriesOf(rows) ==> q in qs
  {
    var qs := seq(|rows|, i requires 0 <= i < |rows| => rows[i].query);
    forall q | q in QueriesOf(rows)
      ensures q in qs
    {
      var i :| 0 <= i < |rows| && rows[i].query == q;
      assert qs[i] == q;
    }
    qs
  }

  /** `getRecentSearches`: the queries of the `limit` most recently used entries, most recent first. */
  function GetRecentSearches(t: RecentTable, limit: int := RecentSearchLimit): (qs: seq<string>)
    ensures |qs| == if 0 <= limit < |t| then limit else |t|
    ensures forall i :: 0 <= i < |qs| ==> qs[i] in t
    ensures forall i, j :: 0 <= i < j < |qs| ==> t[qs[i]] >= t[qs[j]] && qs[i] != qs[j]
    ensures forall q, i :: q in t && q !in qs && 0 <= i < |qs| ==> t[q] <= t[qs[i]]
  {
    QueryList(GetRecentSearchesList(t, limit))
  }

  /** `getLastSearchedQuery`: the most recently used query, if any. */
  function GetLastSearchedQuery(t: RecentTable): (r: Option<string>)
    ensures r.None? <==> |t| == 0
    ensures r.Some? ==> IsLastSearched(t, r.value)
  {
    var rows := GetRecentSearchesList(t, 1);
    if rows == [] then None
    else
      assert forall q :: q in t && q != rows[0].query ==> q !in QueriesOf(rows);
      Some(rows[0].query)
  }

  /** `deleteRecentSearch`: forgets the normalised query. */
  function DeleteRecentSearchFor(t: RecentTable, query: string): (r: RecentTable)
    ensures NormalizeQuery(query) !in r
    ensures forall q :: q in t && q != NormalizeQuery(query) ==> q in r && r[q] == t[q]
    ensures r.Keys <= t.Keys
  {
    DeleteRecentSearch(t, NormalizeQuery(query))
  }

  /** `clearRecentSearches`. */
  function ClearRecentSearches(t: RecentTable): (r: RecentTable)
    ensures |r| == 0
  {
    ClearAllRecentSearches(t)
  }

  // ==================== photo search ====================

  /** `existingPhoto?.isFavorite ?: false`: the stored flag of a photo, false when it is not cached. */
  function PreviousFavorite(t: PhotoTable, id: int): (f: bool)
    ensures f <==> id in t && t[id].isFavorite
  {
    match PhotoDao.GetPhotoById(t, id)
    case Some(e) => e.isFavorite
    case None => false
  }

  /** The rows a successful search writes: each photo under the key and page, keeping its stored flag. */
  function EntitiesFor(t: PhotoTable, photos: seq<Photo>, queryKey: string, page: int, now: int): (es: seq<PhotoEntity>)
    ensures |es| == |photos|
    ensures forall i :: 0 <= i < |photos| ==>
              && ToPhoto(es[i]) == photos[i]
              && es[i].queryKey == queryKey && es[i].pageIndex == page && es[i].updatedAt == now
              && (es[i].isFavorite <==> photos[i].id in t && t[photos[i].id].isFavorite)
  {
    seq(|photos|, i requires 0 <= i < |photos| =>
      ToEntity(photos[i], queryKey, page, now, PreviousFavorite(t, photos[i].id)))
  }

  /** `cleanOldCache`: the expiry sweep of one key, with cutoff `now - CACHE_MAX_AGE_MS`. */
  function CleanOldCache(t: PhotoTable, queryKey: string, now: int): (r: PhotoTable)
    ensures SubTable(r, t) && KeepsFavorites(t, r)
    ensures forall id :: id in t && t[id].updatedAt >= now - CacheMaxAgeMs ==> id in r
    ensures forall id :: id in t && t[id].queryKey != queryKey ==> id in r
    ensures forall id :: id in t ==> (id in r <==> !Expired(t[id], queryKey, now - CacheMaxAgeMs))
  {
    DeleteOldPhotosForQuery(t, queryKey, now - CacheMaxAgeMs)
  }

  /** The photo table after a successful search wrote `photos` and swept the key. */
  function StoreSearchPage(t: PhotoTable, photos: seq<Photo>, queryKey: string, page: int, now: int): (r: PhotoTable)
    ensures forall p :: p in photos ==> p.id in r
    ensures forall id :: id in t && t[id].isFavorite ==> id in r && r[id].isFavorite
  {
    var es := EntitiesFor(t, photos, queryKey, page, now);
    var u := InsertPhotos(t, es);
    StoreSearchPageFacts(t, photos, queryKey, page, now);
    CleanOldCache(u, queryKey, now)
  }

  lemma {:induction false} StoreSearchPageFacts(t: PhotoTable, photos: seq<Photo>, queryKey: string, page: int, now: int)
    ensures var u := InsertPhotos(t, EntitiesFor(t, photos, queryKey, page, now));
      && (forall p :: p in photos ==> p.id in u && u[p.id].updatedAt == now)
      && (forall id :: id in t && t[id].isFavorite ==> id in u && u[id].isFavorite)
  {
    var es := EntitiesFor(t, photos, queryKey, page, now);
    BatchRowsStored(t, es);
    forall p | p in photos
      ensures exists i :: 0 <= i < |es| && es[i].id == p.id
    {
      var i :| 0 <= i < |photos| && photos[i] == p;
      assert es[i].id == ToPhoto(es[i]).id;
    }
    FavoritesKeptByBatch(t, photos, queryKey, page, now);
  }

  /** Every id of a batch is stored from one of the batch's rows. */
  lemma {:induction false} BatchRowsStored(t: PhotoTable, es: seq<PhotoEntity>)
    ensures forall i :: 0 <= i < |es| ==>
              es[i].id in InsertPhotos(t, es)
              && exists j :: 0 <= j < |es| && InsertPhotos(t, es)[es[i].id] == es[j]
  {
    forall i | 0 <= i < |es|
      ensures es[i].id in InsertPhotos(t, es)
      ensures exists j :: 0 <= j < |es| && InsertPhotos(t, es)[es[i].id] == es[j]
    {
      LastOccurrence(es, i);
    }
  }

  /** A refetch keeps every favourite flag, whether or not the photo comes back. */
  lemma {:induction false} FavoritesKeptByBatch(t: PhotoTable, photos: seq<Photo>, queryKey: string, page: int, now: int)
    ensures var u := InsertPhotos(t, EntitiesFor(t, photos, queryKey, page, now));
      forall id :: id in t && t[id].isFavorite ==> id in u && u[id].isFavorite
  {
    var es := EntitiesFor(t, photos, queryKey, page, now);
    var u := InsertPhotos(t, es);
    forall id | id in t && t[id].isFavorite
      ensures id in u && u[id].isFavorite
    {
      if id in IdsOf(es) {
        StoredFromBatch(t, es, id);
        var j :| 0 <= j < |es| && es[j].id == id && u[id] == es[j];
        assert ToPhoto(es[j]) == photos[j];
      }
    }
  }

  /**
   * `searchPhotos`: serves a non-empty cached page unless a refresh is
   * forced; otherwise asks the remote catalog with the raw query, stores the
   * answer under the normalised key and sweeps stale rows; when the remote
   * fails, falls back to the cached page or reports the error. The query is
   * recorded as a recent search in every case.
   */
  function SearchPhotos(db: Db, remote: Remote, now: int, query: string, page: int,
                       perPage: int := DefaultPerPage, forceRefresh: bool := false): (o: Outcome<SearchResult>)
    ensures o.db.recents == SaveRecentSearch(db.recents, NormalizeQuery(query), now)
    ensures o.calls == [] || o.calls == [SearchCall(query, page, perPage)]
    ensures o.calls == [] <==> !forceRefresh && GetPhotosByQueryAndPage(db.photos, NormalizeQuery(query), page) != []
    ensures o.result.Failure? || o.result.value.fromCache ==> o.db.photos == db.photos
    ensures o.result.Failure? ==>
              o.calls != [] && remote.search(query, page, perPage) == Failure(o.result.error)
    ensures forall id :: id in db.photos && db.photos[id].isFavorite ==> id in o.db.photos && o.db.photos[id].isFavorite
  {
    var key := NormalizeQuery(query);
    var recents := SaveRecentSearch(db.recents, key, now);
    var cached := GetPhotosByQueryAndPage(db.photos, key, page);
    if !forceRefresh && cached != [] then
      Outcome(Success(SearchResult(ToPhotos(cached), true, true)), Db(db.photos, recents), [])
    else
      var calls := [SearchCall(query, page, perPage)];
      match remote.search(query, page, perPage)
      case Success(response) =>
        var photos := StoreSearchPage(db.photos, response.photos, key, page, now);
        Outcome(Success(SearchResult(response.photos, response.nextPageUrl.Some?, false)), Db(photos, recents), calls)
      case Failure(err) =>
        if cached != [] then
          Outcome(Success(SearchResult(ToPhotos(cached), false, true)), Db(db.photos, recents), calls)
        else
          Outcome(Failure(err), Db(db.photos, recents), calls)
  }

  /**
   * `getCachedPhotosForLastSearch`: the first cached page of the most
   * recently used query, empty when no query was recorded.
   */
  function GetCachedPhotosForLastSearch(db: Db): (ps: seq<Photo>)
    ensures |db.recents| == 0 ==> ps == []
    ensures |db.recents| > 0 ==>
              exists q :: && IsLastSearched(db.recents, q)
                          && (forall p :: p in ps <==>
                                exists e :: Stored(db.photos, e) && e.queryKey == q && e.pageIndex == FirstPage && ToPhoto(e) == p)
    ensures forall i, j :: 0 <= i < j < |ps| ==> ps[i].id < ps[j].id
  {
    match GetLastSearchedQuery(db.recents)
    case None => []
    case Some(q) =>
      var rows := GetPhotosByQueryAndPage(db.photos, q, FirstPage);
      var ps := ToPhotos(rows);
      PagePhotoMembers(db.photos, q, FirstPage, rows, ps);
      assert IsLastSearched(db.recents, q);
      ps
  }

  /** `q` is a recorded query used no earlier than any other. */
  predicate IsLastSearched(t: RecentTable, q: string)
  {
    q in t && forall p :: p in t ==> t[p] <= t[q]
  }

  /** The photos of a cached page are exactly the records of its stored rows. */
  lemma {:induction false} PagePhotoMembers(t: PhotoTable, key: string, page: int, rows: seq<PhotoEntity>, ps: seq<Photo>)
    requires forall e :: e in rows <==> Stored(t, e) && e.queryKey == key && e.pageIndex == page
    requires ps == ToPhotos(rows)
    ensures forall p :: p in ps <==> exists e :: Stored(t, e) && e.queryKey == key && e.pageIndex == page && ToPhoto(e) == p
  {
    forall p | p in ps
      ensures exists e :: Stored(t, e) && e.queryKey == key && e.pageIndex == page && ToPhoto(e) == p
    {
      var i :| 0 <= i < |ps| && ps[i] == p;
      assert rows[i] in rows;
    }
    forall p | exists e :: Stored(t, e) && e.queryKey == key && e.pageIndex == page && ToPhoto(e) == p
      ensures p in ps
    {
      var e :| Stored(t, e) && e.queryKey == key && e.pageIndex == page && ToPhoto(e) == p;
      var i :| 0 <= i < |rows| && rows[i] == e;
      assert ps[i] == p;
    }
  }

  // ==================== photo details ====================

  /**
   * `getPhotoById`: a cached photo is served as is; otherwise the remote
   * catalog is asked and its answer cached under the detail key, keeping any
   * stored flag of the returned id.
   */
  function GetPhotoById(db: Db, remote: Remote, now: int, id: int): (o: Outcome<Photo>)
    ensures o.db.recents == db.recents
    ensures id in db.photos <==> o.calls == []
    ensures id !in db.photos ==> o.calls == [PhotoCall(id)] && o.result == remote.photo(id)
    ensures id in db.photos ==> o.result == Success(ToPhoto(db.photos[id])) && o.db == db
    ensures o.result.Failure? ==> o.db == db
    ensures o.result.Success? ==> o.result.value.id in o.db.photos
  {
    match PhotoDao.GetPhotoById(db.photos, id)
    case Some(e) => Outcome(Success(ToPhoto(e)), db, [])
    case None =>
      match remote.photo(id)
      case Success(p) =>
        var e := ToEntity(p, DetailQueryKey, DetailPageIndex, now, PreviousFavorite(db.photos, p.id));
        Outcome(Success(p), db.(photos := InsertPhoto(db.photos, e)), [PhotoCall(id)])
      case Failure(err) => Outcome(Failure(err), db, [PhotoCall(id)])
  }

  /** `observePhotoById` read as a snapshot. */
  function ObservePhotoById(t: PhotoTable, id: int): (r: Option<Photo>)
    ensures r.Some? <==> id in t
    ensures r.Some? ==> r.value == ToPhoto(t[id]) && r.value.id == id
  {
    match PhotoDao.GetPhotoById(t, id)
    case Some(e) => Some(ToPhoto(e))
    case None => None
  }

  // ==================== favourites ====================

  /** `isFavorite`: the stored flag, false when the photo is not cached. */
  function IsFavorite(t: PhotoTable, id: int): (f: bool)
    ensures f <==> id in t && t[id].isFavorite
  {
    match PhotoDao.IsFavorite(t, id)
    case Some(v) => v
    case None => false
  }

  /** `toggleFavorite`: writes the negation of the current flag (an absent row matches no row). */
  function ToggleFavorite(t: PhotoTable, id: int): (r: PhotoTable)
    ensures r.Keys == t.Keys
    ensures id in t ==> r[id] == t[id].(isFavorite := !t[id].isFavorite)
    ensures forall x :: x in t && x != id ==> r[x] == t[x]
  {
    UpdateFavoriteStatus(t, id, !IsFavorite(t, id))
  }

  /** `setFavorite`. */
  function SetFavorite(t: PhotoTable, id: int, isFavorite: bool): (r: PhotoTable)
    ensures r.Keys == t.Keys
    ensures id in t ==> r[id] == t[id].(isFavorite := isFavorite)
    ensures forall x :: x in t && x != id ==> r[x] == t[x]
  {
    UpdateFavoriteStatus(t, id, isFavorite)
  }

  /** `getFavoritePhotos` read as a snapshot: the favourite photos, most recently updated first. */
  function GetFavoritePhotos(t: PhotoTable): (ps: seq<Photo>)
    ensures forall p :: p in ps <==> exists id :: id in t && t[id].isFavorite && ToPhoto(t[id]) == p
    ensures |ps| == |FavoriteIds(t)|
    ensures forall i, j :: 0 <= i < j < |ps| ==>
              && ps[i].id in t && ps[j].id in t
              && t[ps[i].id].updatedAt >= t[ps[j].id].updatedAt
              && ps[i].id != ps[j].id
  {
    var rows := PhotoDao.GetFavoritePhotos(t);
    var ps := ToPhotos(rows);
    FavoritePhotoMembers(t, rows, ps);
    forall i | 0 <= i < |ps|
      ensures ps[i].id == rows[i].id && ps[i].id in t && t[ps[i].id] == rows[i]
    {
      assert rows[i] in rows;
    }
    ps
  }

  lemma {:induction false} FavoritePhotoMembers(t: PhotoTable, rows: seq<PhotoEntity>, ps: seq<Photo>)
    requires forall e :: e in rows <==> Stored(t, e) && e.isFavorite
    requires ps == ToPhotos(rows)
    ensures forall p :: p in ps <==> exists id :: id in t && t[id].isFavorite && ToPhoto(t[id]) == p
  {
    forall p | p in ps
      ensures exists id :: id in t && t[id].isFavorite && ToPhoto(t[id]) == p
    {
      var i :| 0 <= i < |ps| && ps[i] == p;
      assert rows[i] in rows;
      assert Stored(t, rows[i]);
    }
    forall p | exists id :: id in t && t[id].isFavorite && ToPhoto(t[id]) == p
      ensures p in ps
    {
      var id :| id in t && t[id].isFavorite && ToPhoto(t[id]) == p;
      assert Stored(t, t[id]);
      var i :| 0 <= i < |rows| && rows[i] == t[id];
      assert ps[i] == p;
    }
  }

  // ==================== cache maintenance ====================

  /** `clearCache`: drops every non-favourite row. */
  function ClearCache(t: PhotoTable): (r: PhotoTable)
    ensures forall id :: id in r <==> id in t && t[id].isFavorite
    ensures forall id :: id in r ==> r[id] == t[id]
  {
    PhotoDao.ClearCache(t)
  }

  /** `refreshCache`: drops the non-favourite rows of the normalised query. */
  function RefreshCache(t: PhotoTable, query: string): (r: PhotoTable)
    ensures forall id :: id in r <==> id in t && (t[id].queryKey != NormalizeQuery(query) || t[id].isFavorite)
    ensures forall id :: id in r ==> r[id] == t[id]
  {
    DeletePhotosForQuery(t, NormalizeQuery(query))
  }
}

=== FILE: recent_search_dao.dfy ===
/**
 * The `recent_searches` table and every statement of its data-access object.
 * The table maps each (normalised) query, its primary key, to the time it
 * was last used.
 */
module RecentSearchDao {
  import opened Ordering
  import opened RecentSearchEntities

  /** The table: one `lastUsedAt` per query. */
  type RecentTable = map<string, int>

  /** The default `limit` of the list reads and of `keepOnlyRecentN`. */
  const DefaultLimit: int := 10

  /** `e` is a row of `t`. */
  predicate HasRow(t: RecentTable, e: RecentSearchEntity)
  {
    e.query in t && t[e.query] == e.lastUsedAt
  }

  /** `insertRecentSearch` with `OnConflictStrategy.REPLACE`: a repeated query only moves its timestamp. */
  function InsertRecentSearch(t: RecentTable, e: RecentSearchEntity): (r: RecentTable)
    ensures r.Keys == t.Keys + {e.query}
    ensures HasRow(r, e)
    ensures forall q :: q in t && q != e.query ==> r[q] == t[q]
  {
    t[e.query := e.lastUsedAt]
  }

  /**
   * `ORDER BY lastUsedAt DESC` over the rows of `t`. SQLite leaves the order
   * of equal timestamps open; the model settles it by the query text.
   */
  function MoreRecent(t: RecentTable): (lt: (string, string) -> bool)
    ensures forall a, b :: a in t && b in t ==>
              (lt(a, b) <==> t[a] > t[b] || (t[a] == t[b] && StrLess(a, b)))
  {
    (a: string, b: string) => a in t && b in t && (t[a] > t[b] || (t[a] == t[b] && StrLess(a, b)))
  }

  lemma {:induction false} MoreRecentStrictTotal(t: RecentTable)
    ensures StrictTotalOn(t.Keys, MoreRecent(t))
  {
    var lt := MoreRecent(t);
    StrLessStrictTotal(t.Keys);
    forall a | a in t
      ensures !lt(a, a)
    {
    }
    forall a, b, c | a in t && b in t && c in t && lt(a, b) && lt(b, c)
      ensures lt(a, c)
    {
      if t[a] == t[b] == t[c] {
        assert StrLess(a, b) && StrLess(b, c);
      }
    }
    forall a, b | a in t && b in t && a != b
      ensures lt(a, b) || lt(b, a)
    {
    }
  }

  /** Every query of the table, most recently used first. */
  function Ranked(t: RecentTable): (qs: seq<string>)
    ensures |qs| == |t|
    ensures forall q :: q in qs <==> q in t
    ensures SortedBy(qs, MoreRecent(t))
  {
    MoreRecentStrictTotal(t);
    Sort(t.Keys, MoreRecent(t))
  }

  /** The first `limit` queries of the ranking (all of them when `limit` is negative). */
  function TopQueries(t: RecentTable, limit: int): (qs: seq<string>)
    ensures |qs| == if 0 <= limit < |t| then limit else |t|
    ensures forall q :: q in qs ==> q in t
  {
    Limit(Ranked(t), limit)
  }

  /** The rows of `t` for the listed queries, in that order. */
  function RowsFor(t: RecentTable, qs: seq<string>): (rows: seq<RecentSearchEntity>)
    requires forall q :: q in qs ==> q in t
    ensures |rows| == |qs|
    ensures forall i :: 0 <= i < |qs| ==> rows[i] == RecentSearchEntity(qs[i], t[qs[i]])
  {
    seq(|qs|, i requires 0 <= i < |qs| => RecentSearchEntity(qs[i], t[qs[i]]))
  }

  /**
   * `getRecentSearchesList` (and `getRecentSearches` read as a snapshot):
   * the `limit` most recently used rows, most recent first.
   */
  function GetRecentSearchesList(t: RecentTable, limit: int := DefaultLimit): (rows: seq<RecentSearchEntity>)
    ensures |rows| == if 0 <= limit < |t| then limit else |t|
    ensures forall i :: 0 <= i < |rows| ==> HasRow(t, rows[i])
    ensures forall i, j :: 0 <= i < j < |rows| ==>
              rows[i].lastUsedAt >= rows[j].lastUsedAt && rows[i].query != rows[j].query
    ensures forall q, i :: q in t && q !in QueriesOf(rows) && 0 <= i < |rows| ==>
              t[q] <= rows[i].lastUsedAt
  {
    var qs := TopQueries(t, limit);
    TopQueriesFacts(t, limit);
    RowsFor(t, qs)
  }

  /** The queries of a list of rows. */
  function QueriesOf(rows: seq<RecentSearchEntity>): (qs: set<string>)
    ensures forall i :: 0 <= i < |rows| ==> rows[i].query in qs
    ensures forall q :: q in qs ==> exists i :: 0 <= i < |rows| && rows[i].query == q
  {
    set i | 0 <= i < |rows| :: rows[i].query
  }

  /** The ranking's prefix is ordered, repetition-free, and outranks every query it leaves out. */
  lemma {:induction false} TopQueriesFacts(t: RecentTable, limit: int)
    ensures var qs := TopQueries(t, limit);
      && (forall i, j :: 0 <= i < j < |qs| ==> t[qs[i]] >= t[qs[j]] && qs[i] != qs[j])
      && (forall q, i :: q in t && q !in qs && 0 <= i < |qs| ==> t[q] <= t[qs[i]])
      && QueriesOf(RowsFor(t, qs)) == set q | q in qs
  {
    TopQueriesOrdered(t, limit);
    TopQueriesOutrank(t, limit);
    TopQueriesRows(t, limit);
  }

  lemma {:induction false} TopQueriesOrdered(t: RecentTable, limit: int)
    ensures var qs := TopQueries(t, limit);
      forall i, j :: 0 <= i < j < |qs| ==> t[qs[i]] >= t[qs[j]] && qs[i] != qs[j]
  {
    var all := Ranked(t);
    var qs := TopQueries(t, limit);
    MoreRecentStrictTotal(t);
    forall i, j | 0 <= i < j < |qs|
      ensures t[qs[i]] >= t[qs[j]] && qs[i] != qs[j]
    {
      assert qs[i] == all[i] && qs[j] == all[j];
      assert MoreRecent(t)(all[i], all[j]);
    }
  }

  lemma {:induction false} TopQueriesOutrank(t: RecentTable, limit: int)
    ensures var qs := TopQueries(t, limit);
      forall q, i :: q in t && q !in qs && 0 <= i < |qs| ==> t[q] <= t[qs[i]]
  {
    var all := Ranked(t);
    var qs := TopQueries(t, limit);
    MoreRecentStrictTotal(t);
    forall q, i | q in t && q !in qs && 0 <= i < |qs|
      ensures t[q] <= t[qs[i]]
    {
      var k :| 0 <= k < |all| && all[k] == q;
      assert forall m :: 0 <= m < |qs| ==> qs[m] == all[m] && qs[m] in qs;
      assert qs[i] == all[i] && i < k;
      assert MoreRecent(t)(all[i], all[k]);
    }
  }

  lemma {:induction false} TopQueriesRows(t: RecentTable, limit: int)
    ensures var qs := TopQueries(t, limit);
      QueriesOf(RowsFor(t, qs)) == set q | q in qs
  {
    var qs := TopQueries(t, limit);
    var rows := RowsFor(t, qs);
    forall q
      ensures q in QueriesOf(rows) <==> q in qs
    {
      if q in qs {
        var i :| 0 <= i < |qs| && qs[i] == q;
        assert rows[i].query == q;
      }
    }
  }

  /** `deleteRecentSearch`: removes the row of that query, if any. */
  function DeleteRecentSearch(t: RecentTable, query: string): (r: RecentTable)
    ensures r.Keys == t.Keys - {query}
    ensures forall q :: q in r ==> r[q] == t[q]
  {
    t - {query}
  }

  /** `clearAllRecentSearches`. */
  function ClearAllRecentSearches(t: RecentTable): (r: RecentTable)
    ensures |r| == 0
  {
    map[]
  }

  /**
   * `keepOnlyRecentN`: deletes every row whose query is not among the
   * `limit` most recently used ones.
   */
  function KeepOnlyRecentN(t: RecentTable, limit: int := DefaultLimit): (r: RecentTable)
    ensures r.Keys <= t.Keys
    ensures forall q :: q in r ==> r[q] == t[q]
    ensures |r| == if 0 <= limit < |t| then limit else |t|
    ensures forall q, p :: q in t && q !in r && p in r ==> t[q] <= t[p]
  {
    var qs := TopQueries(t, limit);
    TopQueriesFacts(t, limit);
    var r := map q | q in qs :: t[q];
    KeptSize(qs, r);
    r
  }

  /** A map whose keys are the elements of a repetition-free sequence has as many entries as it. */
  lemma {:induction false} KeptSize(qs: seq<string>, r: map<string, int>)
    requires forall i, j :: 0 <= i < j < |qs| ==> qs[i] != qs[j]
    requires forall q :: q in r <==> q in qs
    ensures |r| == |qs|
  {
    DistinctSetSize(qs);
    assert r.Keys == set q | q in qs;
  }

  // ==================== properties ====================

  /** `keepOnlyRecentN` keeps exactly the queries `getRecentSearchesList` lists under the same limit. */
  lemma {:induction false} KeptAreListed(t: RecentTable, limit: int)
    ensures KeepOnlyRecentN(t, limit).Keys == QueriesOf(GetRecentSearchesList(t, limit))
  {
    TopQueriesFacts(t, limit);
  }

  /** Without a limit, or under a limit the table does not exceed, nothing is deleted. */
  lemma {:induction false} KeepAllWhenUnderLimit(t: RecentTable, limit: int)
    requires limit < 0 || |t| <= limit
    ensures KeepOnlyRecentN(t, limit) == t
  {
    var r := KeepOnlyRecentN(t, limit);
    assert r.Keys == t.Keys by {
      forall q | q in t
        ensures q in r
      {
        var qs := TopQueries(t, limit);
        assert qs == Ranked(t);
      }
    }
  }

  /** A query used strictly later than every other is listed first under any non-zero limit. */
  lemma {:induction false} LatestRankedFirst(t: RecentTable, q: string, limit: int)
    requires q in t
    requires forall p :: p in t && p != q ==> t[p] < t[q]
    ensures Ranked(t)[0] == q
    ensures limit != 0 ==> |GetRecentSearchesList(t, limit)| > 0 && GetRecentSearchesList(t, limit)[0].query == q
  {
    var all := Ranked(t);
    MoreRecentStrictTotal(t);
    SortedHeadIsLeast(all, t.Keys, MoreRecent(t));
    assert IsLeast(t.Keys, MoreRecent(t), q);
    LeastUnique(t.Keys, MoreRecent(t), all[0], q);
    if limit != 0 {
      assert TopQueries(t, limit)[0] == all[0];
    }
  }

  /** Recording a query later than every other keeps it through any positive limit. */
  lemma {:induction false} LatestSurvivesTrim(t: RecentTable, e: RecentSearchEntity, limit: int)
    requires limit >= 1
    requires forall p :: p in t && p != e.query ==> t[p] < e.lastUsedAt
    ensures e.query in KeepOnlyRecentN(InsertRecentSearch(t, e), limit)
    ensures KeepOnlyRecentN(InsertRecentSearch(t, e), limit)[e.query] == e.lastUsedAt
  {
    var u := InsertRecentSearch(t, e);
    LatestRankedFirst(u, e.query, limit);
    assert TopQueries(u, limit)[0] == e.query;
  }
}

=== FILE: recent_search_entity.dfy ===
/**
 * The recent-search row and the query normalisation that produces the key
 * shared by the photo cache and the recent-search table.
 */
module RecentSearchEntities {

  /** A row of `recent_searches`; `query` is the primary key. */
  datatype RecentSearchEntity = RecentSearchEntity(query: string, lastUsedAt: int)

  /**
   * Kotlin's `Char.isWhitespace()`: Java's `isWhitespace` together with
   * `isSpaceChar`, i.e. the control characters 9-13 and 28-31 and the Unicode
   * space, line and paragraph separators.
   */
  predicate IsWhitespace(c: char)
    ensures c == ' ' || c == '\t' || c == '\n' || c == '\r' ==> IsWhitespace(c)
    ensures IsWhitespace(c) ==> !IsUpper(c) && !('a' <= c <= 'z') && !('0' <= c <= '9')
  {
    var n := c as int;
    || 9 <= n <= 13
    || 28 <= n <= 32
    || n == 0xA0
    || n == 0x1680
    || 0x2000 <= n <= 0x200A
    || n == 0x2028 || n == 0x2029 || n == 0x202F || n == 0x205F
    || n == 0x3000
  }

  /** Every character of `s` satisfies `p`. */
  predicate All(s: string, p: char -> bool)
  {
    forall i :: 0 <= i < |s| ==> p(s[i])
  }

  /** Neither the first nor the last character of `s` satisfies `p`. */
  predicate NoEdge(s: string, p: char -> bool)
  {
    s != [] ==> !p(s[0]) && !p(s[|s| - 1])
  }

  /** Kotlin's `isBlank()`: empty or whitespace only. */
  predicate IsBlank(s: string)
    ensures IsBlank(s) <==> Trim(s) == []
  {
    All(s, IsWhitespace)
  }

  predicate IsUpper(c: char)
  {
    'A' <= c <= 'Z'
  }

  /** Lower-case mapping of one character (ASCII letters only). */
  function LowerChar(c: char): char
  {
    if IsUpper(c) then (c as int + 32) as char else c
  }

  /** Kotlin's `lowercase()`, character by character. */
  function Lower(s: string): (r: string)
    ensures |r| == |s|
    ensures forall i :: 0 <= i < |s| ==> !IsUpper(r[i])
    ensures forall i :: 0 <= i < |s| && !IsUpper(s[i]) ==> r[i] == s[i]
    ensures forall i :: 0 <= i < |s| && IsUpper(s[i]) ==> r[i] as int - s[i] as int == 'a' as int - 'A' as int
  {
    seq(|s|, i requires 0 <= i < |s| => LowerChar(s[i]))
  }

  /** The first index at or after `i` whose character does not satisfy `p` (or `|s|`). */
  function SkipForward(s: string, p: char -> bool, i: nat): (j: nat)
    requires i <= |s|
    ensures i <= j <= |s|
    ensures forall k :: i <= k < j ==> p(s[k])
    ensures j < |s| ==> !p(s[j])
    decreases |s| - i
  {
    if i == |s| || !p(s[i]) then i else SkipForward(s, p, i + 1)
  }

  /** The least index `i <= j` such that every character in `s[i..j]` satisfies `p`. */
  function SkipBackward(s: string, p: char -> bool, j: nat): (i: nat)
    requires j <= |s|
    ensures i <= j
    ensures forall k :: i <= k < j ==> p(s[k])
    ensures 0 < i ==> !p(s[i - 1])
  {
    if j == 0 || !p(s[j - 1]) then j else SkipBackward(s, p, j - 1)
  }

  /** The number of leading characters of `s` that satisfy `p`. */
  function LeadingCount(s: string, p: char -> bool): (n: nat)
    ensures n <= |s|
    ensures forall k :: 0 <= k < n ==> p(s[k])
    ensures n < |s| ==> !p(s[n])
  {
    SkipForward(s, p, 0)
  }

  /**
   * `s[a..a + n]` is what is left of `s` once the characters satisfying `p`
   * are stripped from both ends: everything outside it satisfies `p` and
   * neither of its ends does.
   */
  predicate IsTrimSplit(s: string, p: char -> bool, a: int, n: int)
  {
    && 0 <= a && 0 <= n && a + n <= |s|
    && (forall k :: 0 <= k < a ==> p(s[k]))
    && (forall k :: a + n <= k < |s| ==> p(s[k]))
    && (n > 0 ==> !p(s[a]) && !p(s[a + n - 1]))
  }

  /**
   * Kotlin's `trim(predicate)`: `s` without the characters satisfying `p` at
   * either end.
   */
  function TrimBy(s: string, p: char -> bool): (r: string)
    ensures IsTrimSplit(s, p, LeadingCount(s, p), |r|)
    ensures r == s[LeadingCount(s, p)..LeadingCount(s, p) + |r|]
  {
    var a := LeadingCount(s, p);
    if a == |s| then [] else s[a..SkipBackward(s, p, |s|)]
  }

  /** Kotlin's `trim()`, which trims `Char.isWhitespace` characters. */
  function Trim(s: string): (r: string)
    ensures NoEdge(r, IsWhitespace)
    ensures var a := LeadingCount(s, IsWhitespace);
      && a + |r| <= |s| && r == s[a..a + |r|]
      && All(s[..a], IsWhitespace) && All(s[a + |r|..], IsWhitespace)
  {
    TrimBy(s, IsWhitespace)
  }

  /** The key a raw query is cached and recorded under (`normalizeQuery`). */
  function NormalizeQuery(s: string): (k: string)
    ensures IsNormalized(k)
    ensures |k| <= |s|
  {
    var t := Trim(s);
    LowerKeepsWhitespace();
    LowerShape(t, IsWhitespace);
    Lower(t)
  }

  /** No surrounding whitespace and no upper-case letter. */
  predicate IsNormalized(k: string)
  {
    NoEdge(k, IsWhitespace) && forall i :: 0 <= i < |k| ==> !IsUpper(k[i])
  }

  // ==================== lemmas ====================

  /** Trimming is characterised by its split: any split of `s` as described by `IsTrimSplit` is the one trimming makes. */
  lemma {:induction false} TrimUnique(s: string, p: char -> bool, a: int, n: int)
    requires IsTrimSplit(s, p, a, n)
    ensures TrimBy(s, p) == s[a..a + n]
  {
    var l := LeadingCount(s, p);
    if n > 0 {
      assert l == a;
    } else {
      assert l == |s| by {
        assert forall k :: 0 <= k < |s| ==> p(s[k]);
      }
    }
  }

  /** Lower-casing a character never changes whether it satisfies `p`. */
  ghost predicate PreservedByLower(p: char -> bool)
  {
    forall c {:trigger LowerChar(c)} :: p(LowerChar(c)) == p(c)
  }

  /** Lower-casing neither creates nor removes whitespace. */
  lemma {:induction false} LowerKeepsWhitespace()
    ensures PreservedByLower(IsWhitespace)
  {
  }

  /** Lower-casing keeps the shape of a string for a predicate it preserves. */
  lemma {:induction false} LowerShape(s: string, p: char -> bool)
    requires PreservedByLower(p)
    ensures NoEdge(s, p) ==> NoEdge(Lower(s), p)
    ensures forall i :: 0 <= i < |s| ==> !IsUpper(Lower(s)[i])
  {
  }

  /** Lower-casing leaves a string without upper-case letters as it is. */
  lemma {:induction false} LowerIdentity(k: string)
    requires forall i :: 0 <= i < |k| ==> !IsUpper(k[i])
    ensures Lower(k) == k
  {
  }

  /** Lower-casing keeps every trim split of a predicate it preserves. */
  lemma {:induction false} LowerKeepsTrimSplit(s: string, p: char -> bool, a: int, n: int)
    requires PreservedByLower(p) && IsTrimSplit(s, p, a, n)
    ensures IsTrimSplit(Lower(s), p, a, n)
    ensures Lower(s)[a..a + n] == Lower(s[a..a + n])
  {
    var l := Lower(s);
    forall k | 0 <= k < |s|
      ensures p(l[k]) == p(s[k])
    {
      assert l[k] == LowerChar(s[k]);
    }
  }

  /** Trimming by a predicate that lower-casing preserves commutes with lower-casing. */
  lemma {:induction false} TrimLowerCommute(s: string, p: char -> bool)
    requires PreservedByLower(p)
    ensures TrimBy(Lower(s), p) == Lower(TrimBy(s, p))
  {
    var a := LeadingCount(s, p);
    var n := |TrimBy(s, p)|;
    LowerKeepsTrimSplit(s, p, a, n);
    TrimUnique(Lower(s), p, a, n);
  }

  /** A normalised key is its own normalisation. */
  lemma {:induction false} NormalizedIsFixpoint(k: string)
    requires IsNormalized(k)
    ensures NormalizeQuery(k) == k
  {
    TrimUnique(k, IsWhitespace, 0, |k|);
    LowerIdentity(k);
  }

  /** `normalize(normalize(s)) == normalize(s)`. */
  lemma {:induction false} NormalizeIdempotent(s: string)
    ensures NormalizeQuery(NormalizeQuery(s)) == NormalizeQuery(s)
  {
    NormalizedIsFixpoint(NormalizeQuery(s));
  }

  /**
   * `t` is `s` placed at offset `off`, with only characters satisfying `p`
   * around it.
   */
  predicate Surrounds(t: string, s: string, off: int, p: char -> bool)
  {
    && 0 <= off && off + |s| <= |t|
    && (forall k :: 0 <= k < off ==> p(t[k]))
    && (forall k :: off + |s| <= k < |t| ==> p(t[k]))
    && (forall k :: 0 <= k < |s| ==> t[off + k] == s[k])
  }

  /** `pre + s + post` surrounds `s` when `pre` and `post` consist of `p` characters. */
  lemma {:induction false} ConcatSurrounds(pre: string, s: string, post: string, p: char -> bool)
    requires All(pre, p) && All(post, p)
    ensures Surrounds(pre + s + post, s, |pre|, p)
  {
    var t := pre + s + post;
    forall k | 0 <= k < |pre|
      ensures p(t[k])
    {
      assert t[k] == pre[k];
    }
    forall k | |pre| + |s| <= k < |t|
      ensures p(t[k])
    {
      assert t[k] == post[k - |pre| - |s|];
    }
  }

  /** A slice of `s` is the matching slice of a sequence that holds `s` at offset `off`. */
  lemma {:induction false} ShiftedSlice(t: string, s: string, off: int, a: int, n: int)
    requires 0 <= off && off + |s| <= |t| && 0 <= a && 0 <= n && a + n <= |s|
    requires forall k :: 0 <= k < |s| ==> t[off + k] == s[k]
    ensures t[off + a..off + a + n] == s[a..a + n]
  {
    var x, y := t[off + a..off + a + n], s[a..a + n];
    forall i | 0 <= i < n
      ensures x[i] == y[i]
    {
      assert t[off + (a + i)] == s[a + i];
    }
  }

  /** The trim split of `s`, shifted by `off`, is a trim split of anything surrounding `s`. */
  lemma {:induction false} SurroundedTrimSplit(t: string, s: string, off: int, p: char -> bool)
    requires Surrounds(t, s, off, p)
    ensures var a, n := LeadingCount(s, p), |TrimBy(s, p)|;
      IsTrimSplit(t, p, off + a, n) && t[off + a..off + a + n] == TrimBy(s, p)
  {
    var a, n := LeadingCount(s, p), |TrimBy(s, p)|;
    forall k | off <= k < off + a
      ensures p(t[k])
    {
      assert t[off + (k - off)] == s[k - off];
    }
    forall k | off + a + n <= k < off + |s|
      ensures p(t[k])
    {
      assert t[off + (k - off)] == s[k - off];
    }
    if n > 0 {
      assert t[off + a] == s[a];
      assert t[off + (a + n - 1)] == s[a + n - 1];
    }
    ShiftedSlice(t, s, off, a, n);
  }

  /** Trimming by `p` ignores `p` characters added around a string. */
  lemma {:induction false} TrimIgnoresSurrounding(t: string, s: string, off: int, p: char -> bool)
    requires Surrounds(t, s, off, p)
    ensures TrimBy(t, p) == TrimBy(s, p)
  {
    var a, n := LeadingCount(s, p), |TrimBy(s, p)|;
    SurroundedTrimSplit(t, s, off, p);
    TrimAgrees(t, s, p, off + a, n);
  }

  /** A trim split of `t` whose middle is the trimmed `s` gives `t` and `s` the same trim. */
  lemma {:induction false} TrimAgrees(t: string, s: string, p: char -> bool, b: int, n: int)
    requires IsTrimSplit(t, p, b, n) && t[b..b + n] == TrimBy(s, p)
    ensures TrimBy(t, p) == TrimBy(s, p)
  {
    TrimUnique(t, p, b, n);
  }

  /** Surrounding whitespace does not change the key. */
  lemma {:induction false} NormalizeIgnoresSurroundingWhitespace(pre: string, s: string, post: string)
    requires IsBlank(pre) && IsBlank(post)
    ensures NormalizeQuery(pre + s + post) == NormalizeQuery(s)
  {
    ConcatSurrounds(pre, s, post, IsWhitespace);
    TrimIgnoresSurrounding(pre + s + post, s, |pre|, IsWhitespace);
  }

  /** Strings that agree up to letter case have the same key. */
  lemma {:induction false} NormalizeIgnoresCase(s: string, t: string)
    requires Lower(s) == Lower(t)
    ensures NormalizeQuery(s) == NormalizeQuery(t)
  {
    LowerKeepsWhitespace();
    TrimLowerCommute(s, IsWhitespace);
    TrimLowerCommute(t, IsWhitespace);
  }

  /** A string whose lower-casing is already a key has that key. */
  lemma {:induction false} KeyOfLowered(s: string, k: string)
    requires IsNormalized(k) && Lower(s) == k
    ensures NormalizeQuery(s) == k
  {
    NormalizeIgnoresCase(s, k);
    NormalizedIsFixpoint(k);
  }

  /** Blank padding keeps a string's key. */
  lemma {:induction false} KeyOfPadded(pre: string, s: string, post: string, k: string)
    requires IsBlank(pre) && IsBlank(post) && NormalizeQuery(s) == k
    ensures NormalizeQuery(pre + s + post) == k
  {
    NormalizeIgnoresSurroundingWhitespace(pre, s, post);
  }

  /** A key, a string that lower-cases to it and that string padded with blanks all normalise to the key. */
  lemma {:induction false} KeyVariants(k: string, s: string, pad: string)
    requires IsNormalized(k) && Lower(s) == k && IsBlank(pad)
    ensures NormalizeQuery(k) == k
    ensures NormalizeQuery(s) == k
    ensures NormalizeQuery(pad + s + pad) == k
  {
    NormalizedIsFixpoint(k);
    KeyOfLowered(s, k);
    KeyOfPadded(pad, s, pad, k);
  }

  /** "Nature", "nature" and " Nature " share the key "nature". */
  lemma {:induction false} NatureExample()
    ensures NormalizeQuery("Nature") == "nature"
    ensures NormalizeQuery(" Nature ") == "nature"
    ensures NormalizeQuery("nature") == "nature"
  {
    NatureSpelling();
    KeyVariants("nature", "Nature", " ");
  }

  /** The character-level facts about the example strings. */
  lemma {:induction false} NatureSpelling()
    ensures IsNormalized("nature") && Lower("Nature") == "nature" && IsBlank(" ")
    ensures " " + "Nature" + " " == " Nature "
  {
    assert Lower("Nature")[0] == 'n';
  }

  /** A normalised key is blank exactly when it is empty. */
  lemma {:induction false} NormalizedBlankIffEmpty(k: string)
    requires IsNormalized(k)
    ensures IsBlank(k) <==> k == []
  {
  }
}

=== FILE: repository_properties.dfy ===
/**
 * Properties of the photo repository that follow one operation down a
 * particular path or relate several operations in sequence.
 */
module RepositoryProperties {
  import opened Wrappers
  import opened PexelsModels
  import opened PhotoEntities
  import PhotoDao
  import opened RecentSearchEntities
  import opened RecentSearchDao
  import opened PhotoRepository

  /** The ids of a list of photos. */
  function PhotoIds(ps: seq<Photo>): set<int>
  {
    set p | p in ps :: p.id
  }

  /** The cached page a search of `query` would read. */
  function CachedPage(t: PhotoDao.PhotoTable, query: string, page: int): seq<PhotoEntity>
  {
    PhotoDao.GetPhotosByQueryAndPage(t, NormalizeQuery(query), page)
  }

  // ==================== searchPhotos: cache hit ====================

  /**
   * A non-empty cached page is served as is, with `hasNextPage` assumed,
   * without asking the remote catalog and without writing any photo.
   */
  lemma {:induction false} CacheHitServesStoredPage(db: Db, remote: Remote, now: int, query: string, page: int, perPage: int)
    requires CachedPage(db.photos, query, page) != []
    ensures var o := SearchPhotos(db, remote, now, query, page, perPage, false);
      && o.calls == []
      && o.db.photos == db.photos
      && o.result.Success? && o.result.value.fromCache && o.result.value.hasNextPage
      && (forall p :: p in o.result.value.photos <==>
            exists e :: PhotoDao.Stored(db.photos, e) && e.queryKey == NormalizeQuery(query) && e.pageIndex == page && ToPhoto(e) == p)
      && (forall i, j :: 0 <= i < j < |o.result.value.photos| ==> o.result.value.photos[i].id < o.result.value.photos[j].id)
  {
    var rows := CachedPage(db.photos, query, page);
    var ps := ToPhotos(rows);
    PagePhotoMembers(db.photos, NormalizeQuery(query), page, rows, ps);
  }

  // ==================== searchPhotos: remote answer ====================

  /** The rows a search writes carry the ids of the photos fetched. */
  lemma {:induction false} EntityIds(t: PhotoDao.PhotoTable, photos: seq<Photo>, key: string, page: int, now: int)
    ensures PhotoDao.IdsOf(EntitiesFor(t, photos, key, page, now)) == PhotoIds(photos)
    ensures forall i :: 0 <= i < |photos| ==> EntitiesFor(t, photos, key, page, now)[i].id == photos[i].id
  {
    var es := EntitiesFor(t, photos, key, page, now);
    forall i | 0 <= i < |photos|
      ensures es[i].id == photos[i].id
    {
      assert ToPhoto(es[i]) == photos[i];
    }
    forall x
      ensures x in PhotoDao.IdsOf(es) <==> x in PhotoIds(photos)
    {
      if x in PhotoDao.IdsOf(es) {
        var e :| e in es && e.id == x;
        var i :| 0 <= i < |es| && es[i] == e;
        assert photos[i] in photos;
      }
      if x in PhotoIds(photos) {
        var p :| p in photos && p.id == x;
        var i :| 0 <= i < |photos| && photos[i] == p;
        assert es[i] in es;
      }
    }
  }

  /**
   * After a search writes a page, the row of each fetched photo (its last
   * copy, when the page repeats an id) holds that photo under the normalised
   * key and page, stamped `now`, with the flag it had before.
   */
  lemma {:induction false} StoredRowOfFetched(t: PhotoDao.PhotoTable, photos: seq<Photo>, key: string, page: int, now: int, i: int)
    requires 0 <= i < |photos| && PhotoDao.LastWithId(EntitiesFor(t, photos, key, page, now), i)
    ensures var r := StoreSearchPage(t, photos, key, page, now);
      && photos[i].id in r
      && r[photos[i].id] == ToEntity(photos[i], key, page, now, PreviousFavorite(t, photos[i].id))
  {
    var es := EntitiesFor(t, photos, key, page, now);
    var u := PhotoDao.InsertPhotos(t, es);
    assert PhotoDao.Stored(u, es[i]);
    assert es[i] == ToEntity(photos[i], key, page, now, PreviousFavorite(t, photos[i].id));
  }

  /**
   * A search that reaches the remote catalog and gets an answer returns that
   * answer, and caches each photo of it under the normalised key and page.
   */
  lemma {:induction false} FetchedPageIsStored(db: Db, remote: Remote, now: int, query: string, page: int, perPage: int,
                                               forceRefresh: bool, response: PexelsResponse)
    requires forceRefresh || CachedPage(db.photos, query, page) == []
    requires remote.search(query, page, perPage) == Success(response)
    ensures var o := SearchPhotos(db, remote, now, query, page, perPage, forceRefresh);
      && o.calls == [SearchCall(query, page, perPage)]
      && o.result == Success(SearchResult(response.photos, response.nextPageUrl.Some?, false))
      && forall i :: 0 <= i < |response.photos|
                     && PhotoDao.LastWithId(EntitiesFor(db.photos, response.photos, NormalizeQuery(query), page, now), i) ==>
           && response.photos[i].id in o.db.photos
           && o.db.photos[response.photos[i].id]
              == ToEntity(response.photos[i], NormalizeQuery(query), page, now, PreviousFavorite(db.photos, response.photos[i].id))
  {
    forall i | 0 <= i < |response.photos|
               && PhotoDao.LastWithId(EntitiesFor(db.photos, response.photos, NormalizeQuery(query), page, now), i)
      ensures var r := StoreSearchPage(db.photos, response.photos, NormalizeQuery(query), page, now);
        response.photos[i].id in r
        && r[response.photos[i].id]
           == ToEntity(response.photos[i], NormalizeQuery(query), page, now, PreviousFavorite(db.photos, response.photos[i].id))
    {
      StoredRowOfFetched(db.photos, response.photos, NormalizeQuery(query), page, now, i);
    }
  }

  /**
   * A search that writes a page touches no other row except through the
   * sweep, and the sweep removes exactly the non-favourite rows of the key
   * last written more than a day before `now`.
   */
  lemma {:induction false} SweepRemovesOnlyExpiredRows(t: PhotoDao.PhotoTable, photos: seq<Photo>, key: string, page: int, now: int)
    ensures var r := StoreSearchPage(t, photos, key, page, now);
      && r.Keys <= t.Keys + PhotoIds(photos)
      && forall id :: id in t && id !in PhotoIds(photos) ==>
           && (id in r <==> !PhotoDao.Expired(t[id], key, now - CacheMaxAgeMs))
           && (id in r ==> r[id] == t[id])
  {
    EntityIds(t, photos, key, page, now);
  }

  // ==================== searchPhotos: remote failure ====================

  /**
   * When the remote catalog fails, a non-empty cached page is served with no
   * next page, and otherwise the failure is reported; no photo is written.
   */
  lemma {:induction false} FailureFallsBackToCache(db: Db, remote: Remote, now: int, query: string, page: int, perPage: int,
                                                   forceRefresh: bool, err: ApiError)
    requires forceRefresh || CachedPage(db.photos, query, page) == []
    requires remote.search(query, page, perPage) == Failure(err)
    ensures var o := SearchPhotos(db, remote, now, query, page, perPage, forceRefresh);
      && o.calls == [SearchCall(query, page, perPage)]
      && o.db.photos == db.photos
      && (CachedPage(db.photos, query, page) == [] ==> o.result == Failure(err))
      && (CachedPage(db.photos, query, page) != [] ==>
            o.result == Success(SearchResult(ToPhotos(CachedPage(db.photos, query, page)), false, true)))
  {
  }

  // ==================== searchPhotos: recent searches ====================

  /**
   * Every search keeps the recent-search list within its bound, and a blank
   * query leaves it alone.
   */
  lemma {:induction false} SearchRecordsQuery(db: Db, remote: Remote, now: int, query: string, page: int, perPage: int, forceRefresh: bool)
    ensures var o := SearchPhotos(db, remote, now, query, page, perPage, forceRefresh);
      && (|db.recents| <= RecentSearchLimit ==> |o.db.recents| <= RecentSearchLimit)
      && (IsBlank(NormalizeQuery(query)) ==> o.db.recents == db.recents)
  {
    NormalizeIdempotent(query);
  }

  /** A non-blank query issued later than every recorded one becomes the last searched query. */
  lemma {:induction false} LatestSearchIsLastSearched(t: RecentTable, query: string, now: int)
    requires !IsBlank(NormalizeQuery(query))
    requires forall q :: q in t ==> t[q] < now
    ensures var r := SaveRecentSearch(t, query, now);
      && NormalizeQuery(query) in r && r[NormalizeQuery(query)] == now
      && GetLastSearchedQuery(r) == Some(NormalizeQuery(query))
  {
    var key := NormalizeQuery(query);
    var r := SaveRecentSearch(t, query, now);
    LatestSurvivesTrim(t, RecentSearchEntity(key, now), RecentSearchLimit);
    var last := GetLastSearchedQuery(r);
    assert last.Some?;
    assert r[last.value] >= now;
  }

  /**
   * Offline mode: after a search of the first page by a non-blank query
   * issued later than every recorded one, the cached photos of the last
   * search are that query's cached first page.
   */
  lemma {:induction false} LastSearchIsServedOffline(db: Db, remote: Remote, now: int, query: string, perPage: int, forceRefresh: bool)
    requires !IsBlank(NormalizeQuery(query))
    requires forall q :: q in db.recents ==> db.recents[q] < now
    ensures var o := SearchPhotos(db, remote, now, query, FirstPage, perPage, forceRefresh);
      GetCachedPhotosForLastSearch(o.db) == ToPhotos(CachedPage(o.db.photos, query, FirstPage))
  {
    NormalizeIdempotent(query);
    LatestSearchIsLastSearched(db.recents, query, now);
  }

  // ==================== searchPhotos: sequences ====================

  /**
   * A search that yields photos leaves a cached page behind: the next search
   * of the same normalised query and page, not forced, is a cache hit.
   */
  lemma {:induction false} SearchTwiceHitsCache(db: Db, remote: Remote, remote2: Remote, now: int, now2: int,
                                                query: string, query2: string, page: int, perPage: int, perPage2: int, forceRefresh: bool)
    requires NormalizeQuery(query2) == NormalizeQuery(query)
    ensures var o := SearchPhotos(db, remote, now, query, page, perPage, forceRefresh);
      o.result.Success? && o.result.value.photos != [] ==>
        && SearchPhotos(o.db, remote2, now2, query2, page, perPage2, false).calls == []
        && SearchPhotos(o.db, remote2, now2, query2, page, perPage2, false).result.Success?
        && SearchPhotos(o.db, remote2, now2, query2, page, perPage2, false).result.value.fromCache
  {
    var o := SearchPhotos(db, remote, now, query, page, perPage, forceRefresh);
    if o.result.Success? && o.result.value.photos != [] {
      SearchLeavesPage(db, remote, now, query, page, perPage, forceRefresh);
      CacheHitServesStoredPage(o.db, remote2, now2, query2, page, perPage2);
    }
  }

  /** A search that yields photos, from the cache or the remote catalog, leaves its page cached. */
  lemma {:induction false} SearchLeavesPage(db: Db, remote: Remote, now: int, query: string, page: int, perPage: int, forceRefresh: bool)
    ensures var o := SearchPhotos(db, remote, now, query, page, perPage, forceRefresh);
      o.result.Success? && o.result.value.photos != [] ==> CachedPage(o.db.photos, query, page) != []
  {
    var o := SearchPhotos(db, remote, now, query, page, perPage, forceRefresh);
    if o.result.Success? && o.result.value.photos != [] && !o.result.value.fromCache {
      FetchedPageIsCached(db.photos, o.result.value.photos, NormalizeQuery(query), page, now);
    }
  }

  /** A non-empty page written by a search is found again under its key and page. */
  lemma {:induction false} FetchedPageIsCached(t: PhotoDao.PhotoTable, photos: seq<Photo>, key: string, page: int, now: int)
    requires photos != []
    ensures PhotoDao.GetPhotosByQueryAndPage(StoreSearchPage(t, photos, key, page, now), key, page) != []
  {
    var r := StoreSearchPage(t, photos, key, page, now);
    var es := EntitiesFor(t, photos, key, page, now);
    PhotoDao.LastOccurrence(es, 0);
    var i :| 0 <= i < |es| && PhotoDao.LastWithId(es, i);
    StoredRowOfFetched(t, photos, key, page, now, i);
    var e := r[photos[i].id];
    assert PhotoDao.Stored(r, e);
    assert e in PhotoDao.GetPhotosByQueryAndPage(r, key, page);
  }

  /**
   * Invalidating a query, when no favourite is stored on the page, makes the
   * next search of that page go to the remote catalog again.
   */
  lemma {:induction false} RefreshThenSearchRefetches(db: Db, remote: Remote, now: int, query: string, query2: string, page: int, perPage: int)
    requires NormalizeQuery(query2) == NormalizeQuery(query)
    requires forall id :: id in db.photos && db.photos[id].queryKey == NormalizeQuery(query) && db.photos[id].pageIndex == page
               ==> !db.photos[id].isFavorite
    ensures SearchPhotos(Db(RefreshCache(db.photos, query), db.recents), remote, now, query2, page, perPage, false).calls
            == [SearchCall(query2, page, perPage)]
  {
    var r := RefreshCache(db.photos, query);
    var c := CachedPage(r, query2, page);
    assert c == [] by {
      forall e
        ensures e !in c
      {
      }
    }
  }

  /** A favourite keeps its flag through any search, including a forced refetch of its page. */
  lemma {:induction false} FavoriteSurvivesSearch(db: Db, remote: Remote, now: int, query: string, page: int, perPage: int,
                                                  forceRefresh: bool, id: int)
    requires id in db.photos && db.photos[id].isFavorite
    ensures var o := SearchPhotos(db, remote, now, query, page, perPage, forceRefresh);
      IsFavorite(o.db.photos, id)
  {
  }

  /**
   * The first search on an empty device: every photo the catalog returns for
   * "Nature" is cached under "nature" on the page asked for, as a
   * non-favourite, and "nature" becomes the only recent search.
   */
  lemma {:induction false} NatureScenario(remote: Remote, now: int, response: PexelsResponse)
    requires remote.search("Nature", FirstPage, DefaultPerPage) == Success(response)
    ensures var o := SearchPhotos(Db(map[], map[]), remote, now, "Nature", FirstPage);
      && o.result == Success(SearchResult(response.photos, response.nextPageUrl.Some?, false))
      && o.db.recents == map["nature" := now]
      && o.db.photos.Keys == PhotoIds(response.photos)
      && forall id :: id in o.db.photos ==>
           && o.db.photos[id].queryKey == "nature" && o.db.photos[id].pageIndex == FirstPage
           && !o.db.photos[id].isFavorite
  {
    NatureExample();
    FirstSearchOutcome(remote, now, "Nature", FirstPage, DefaultPerPage, response);
  }

  /**
   * The first search on an empty device, by any non-blank query: the answer
   * is returned, each photo of it is cached as a non-favourite under the
   * normalised key and the page asked for, nothing else is cached, and the
   * key is the only recent search.
   */
  lemma {:induction false} FirstSearchOutcome(remote: Remote, now: int, query: string, page: int, perPage: int, response: PexelsResponse)
    requires !IsBlank(NormalizeQuery(query))
    requires remote.search(query, page, perPage) == Success(response)
    ensures var o := SearchPhotos(Db(map[], map[]), remote, now, query, page, perPage, false);
      && o.result == Success(SearchResult(response.photos, response.nextPageUrl.Some?, false))
      && o.db.recents == map[NormalizeQuery(query) := now]
      && o.db.photos.Keys == PhotoIds(response.photos)
      && forall id :: id in o.db.photos ==>
           && o.db.photos[id].queryKey == NormalizeQuery(query) && o.db.photos[id].pageIndex == page
           && !o.db.photos[id].isFavorite
  {
    var empty: PhotoDao.PhotoTable := map[];
    assert CachedPage(empty, query, page) == [];
    FetchedPageIsStored(Db(empty, map[]), remote, now, query, page, perPage, false, response);
    PageIntoEmpty(response.photos, NormalizeQuery(query), page, now);
    SaveIntoEmpty(query, now);
  }

  /** Saving a non-blank query into an empty list records exactly its key. */
  lemma {:induction false} SaveIntoEmpty(query: string, now: int)
    requires !IsBlank(NormalizeQuery(query))
    ensures SaveRecentSearch(map[], NormalizeQuery(query), now) == map[NormalizeQuery(query) := now]
  {
    NormalizeIdempotent(query);
    KeepAllWhenUnderLimit(map[NormalizeQuery(query) := now], RecentSearchLimit);
  }

  /** Writing a page into an empty table leaves exactly its photos, as non-favourite rows of that key and page. */
  lemma {:induction false} PageIntoEmpty(photos: seq<Photo>, key: string, page: int, now: int)
    ensures var r := StoreSearchPage(map[], photos, key, page, now);
      && r.Keys == PhotoIds(photos)
      && forall id :: id in r ==> r[id].queryKey == key && r[id].pageIndex == page && !r[id].isFavorite
  {
    var t: PhotoDao.PhotoTable := map[];
    var r := StoreSearchPage(t, photos, key, page, now);
    SweepRemovesOnlyExpiredRows(t, photos, key, page, now);
    forall id | id in PhotoIds(photos)
      ensures id in r && r[id].queryKey == key && r[id].pageIndex == page && !r[id].isFavorite
    {
      var q :| q in photos && q.id == id;
      var k :| 0 <= k < |photos| && photos[k] == q;
      var es := EntitiesFor(t, photos, key, page, now);
      EntityIds(t, photos, key, page, now);
      PhotoDao.LastOccurrence(es, k);
      var i :| k <= i < |es| && es[i].id == es[k].id && PhotoDao.LastWithId(es, i);
      StoredRowOfFetched(t, photos, key, page, now, i);
    }
  }

  /**
   * A search that finds its page empty and gets an answer leaves exactly the
   * answer's photos on that page, so the next search of the page, served
   * from the cache, returns the same set of photo ids.
   */
  lemma {:induction false} RefetchedPageHoldsAnswer(db: Db, remote: Remote, now: int, query: string, page: int, perPage: int,
                                                    forceRefresh: bool, response: PexelsResponse)
    requires CachedPage(db.photos, query, page) == []
    requires remote.search(query, page, perPage) == Success(response)
    ensures var o := SearchPhotos(db, remote, now, query, page, perPage, forceRefresh);
      PhotoDao.PageIds(o.db.photos, NormalizeQuery(query), page) == PhotoIds(response.photos)
  {
    NoRowOnEmptyPage(db.photos, NormalizeQuery(query), page);
    PageAfterStore(db.photos, response.photos, NormalizeQuery(query), page, now);
  }

  /** Writing a page that held no row leaves exactly the written photos on it. */
  lemma {:induction false} PageAfterStore(t: PhotoDao.PhotoTable, photos: seq<Photo>, key: string, page: int, now: int)
    requires forall id :: id in t ==> t[id].queryKey != key || t[id].pageIndex != page
    ensures PhotoDao.PageIds(StoreSearchPage(t, photos, key, page, now), key, page) == PhotoIds(photos)
  {
    var r := StoreSearchPage(t, photos, key, page, now);
    SweepRemovesOnlyExpiredRows(t, photos, key, page, now);
    forall id | id in PhotoDao.PageIds(r, key, page)
      ensures id in PhotoIds(photos)
    {
    }
    forall id | id in PhotoIds(photos)
      ensures id in PhotoDao.PageIds(r, key, page)
    {
      var q :| q in photos && q.id == id;
      var k :| 0 <= k < |photos| && photos[k] == q;
      var es := EntitiesFor(t, photos, key, page, now);
      EntityIds(t, photos, key, page, now);
      PhotoDao.LastOccurrence(es, k);
      var i :| k <= i < |es| && es[i].id == es[k].id && PhotoDao.LastWithId(es, i);
      StoredRowOfFetched(t, photos, key, page, now, i);
    }
  }

  /** An empty cached page means no row carries that key and page. */
  lemma {:induction false} NoRowOnEmptyPage(t: PhotoDao.PhotoTable, key: string, page: int)
    requires PhotoDao.GetPhotosByQueryAndPage(t, key, page) == []
    ensures forall id :: id in t ==> t[id].queryKey != key || t[id].pageIndex != page
  {
    forall id | id in t
      ensures t[id].queryKey != key || t[id].pageIndex != page
    {
      assert PhotoDao.Stored(t, t[id]);
    }
  }

  /** After the cache is cleared, a search of a page that held no favourite goes to the remote catalog. */
  lemma {:induction false} ClearThenSearchRefetches(db: Db, remote: Remote, now: int, query: string, page: int, perPage: int)
    requires forall id :: id in db.photos && db.photos[id].queryKey == NormalizeQuery(query) && db.photos[id].pageIndex == page
               ==> !db.photos[id].isFavorite
    ensures SearchPhotos(Db(ClearCache(db.photos), db.recents), remote, now, query, page, perPage, false).calls
            == [SearchCall(query, page, perPage)]
  {
    var c := CachedPage(ClearCache(db.photos), query, page);
    assert c == [] by {
      forall e
        ensures e !in c
      {
      }
    }
  }

  /** Marking a photo favourite and then forcing a refetch of any page leaves it favourite. */
  lemma {:induction false} ToggleThenRefetchKeepsFavorite(db: Db, remote: Remote, now: int, query: string, page: int, perPage: int, id: int)
    requires id in db.photos && !db.photos[id].isFavorite
    ensures var o := SearchPhotos(db.(photos := ToggleFavorite(db.photos, id)), remote, now, query, page, perPage, true);
      IsFavorite(o.db.photos, id)
  {
    FavoriteSurvivesSearch(db.(photos := ToggleFavorite(db.photos, id)), remote, now, query, page, perPage, true, id);
  }

  // ==================== getPhotoById ====================

  /**
   * A lookup that misses the cache and gets an answer caches exactly that
   * photo under the detail key, keeping any flag stored for its id.
   */
  lemma {:induction false} FetchedDetailIsCached(db: Db, remote: Remote, now: int, id: int, p: Photo)
    requires id !in db.photos && remote.photo(id) == Success(p)
    ensures var o := GetPhotoById(db, remote, now, id);
      && o.result == Success(p)
      && o.db.photos.Keys == db.photos.Keys + {p.id}
      && o.db.photos[p.id] == ToEntity(p, DetailQueryKey, DetailPageIndex, now, PreviousFavorite(db.photos, p.id))
      && forall x :: x in db.photos && x != p.id ==> o.db.photos[x] == db.photos[x]
  {
  }

  /** Once a lookup has cached the photo it asked for, the next lookup is served from the cache. */
  lemma {:induction false} SecondLookupHitsCache(db: Db, remote: Remote, remote2: Remote, now: int, now2: int, id: int)
    requires id !in db.photos && remote.photo(id).Success? && remote.photo(id).value.id == id
    ensures var o := GetPhotoById(db, remote, now, id);
      var o2 := GetPhotoById(o.db, remote2, now2, id);
      o2.calls == [] && o2.result == o.result && o2.db == o.db
  {
    FetchedDetailIsCached(db, remote, now, id, remote.photo(id).value);
  }

  // ==================== favourites ====================

  /** Toggling negates the flag of a cached photo. */
  lemma {:induction false} ToggleNegates(t: PhotoDao.PhotoTable, id: int)
    requires id in t
    ensures IsFavorite(ToggleFavorite(t, id), id) == !IsFavorite(t, id)
  {
  }

  /** Toggling twice restores the table. */
  lemma {:induction false} ToggleTwiceRestores(t: PhotoDao.PhotoTable, id: int)
    ensures ToggleFavorite(ToggleFavorite(t, id), id) == t
  {
    var r := ToggleFavorite(ToggleFavorite(t, id), id);
    forall x | x in t
      ensures r[x] == t[x]
    {
    }
  }

  /** Toggling a photo that is not cached changes nothing and it stays not favourite. */
  lemma {:induction false} ToggleAbsentIsNoOp(t: PhotoDao.PhotoTable, id: int)
    requires id !in t
    ensures ToggleFavorite(t, id) == t
    ensures !IsFavorite(ToggleFavorite(t, id), id)
  {
  }

  /** Clearing the cache keeps every favourite flag and the favourite list. */
  lemma {:induction false} ClearCacheKeepsFavorites(t: PhotoDao.PhotoTable)
    ensures forall id :: IsFavorite(ClearCache(t), id) == IsFavorite(t, id)
    ensures GetFavoritePhotos(ClearCache(t)) == GetFavoritePhotos(t)
  {
    PhotoDao.ClearCacheKeepsFavoriteList(t);
  }
}

=== FILE: wrappers.dfy ===
/** The optional value and the success-or-failure result the repository passes around. */
module Wrappers {

  /** A value that may be absent (Kotlin's nullable `T?`). */
  datatype Option<+T> = None | Some(value: T)

  /** Kotlin's `Result<T>`: a success value or the failure that was caught. */
  datatype Result<+T, +E> = Success(value: T) | Failure(error: E)
}
